=== FILE: README.md ===
# htm-Annonator annotation engine in Dafny

htm-Annonator loads a saved HTML page into an iframe and lets the reader
highlight passages. A highlight is an element with a background colour and
three attributes: `data-annotation-id`, `data-timestamp` and
`data-comment`. The page itself is the store. The sidebar list is rebuilt
from it by a scan. Lists can be exported to JSON and imported again, and an
import re-anchors each entry by searching the page's text.

This project models that engine over an abstract page. The page is a
sequence of `Element` records, each holding:

- the rendered text and the inline background colour;
- the three optional attributes;
- whether the element is a `<span>`.

Modules, one per concern, each in its own file:

- `Options`: the `Option` type.
- `Strings`: ASCII lower-casing, prefix, suffix and substring tests, and the
  forward case-insensitive search that stands for `window.find`.
- `Colour`: both copies of `rgbToHex`, the JavaScript number semantics they
  depend on, how the browser reads back an assigned `#rrggbb` colour, and the
  temporary import colour. The packing expression is modelled with its
  32-bit shifts, which wrap, and with `toString(16)` printing a negative
  number with a minus sign; the lemmas only cover byte components.
- `Whitespace`: the import loop's text normaliser.
- `Sequences`: generic facts about sequences used by the proofs.
- `Document`: the scan `syncAnnotations` and the page mutators for comment
  update, delete and clear-all.
- `Reanchor`: the import loop, with its three-tier search, cursor, paint,
  span claiming and count, and the whole import handler.
- `Export`: the save order, the download name and the drop filter.
- `Sidebar`: the search filter, the count badge and the empty-list
  placeholder.

The browser and the environment appear as parameters:

- `crypto.randomUUID()` and `new Date().toISOString()` are functions from
  the element's position to a non-empty string.
- `Math.random()` is a function from the record's position to the drawn
  number, which is below 16777215.
- `window.find` is the first ASCII-case-insensitive occurrence of the query
  at or after the cursor, with no wrap-around. The empty query is never
  found.
- `execCommand("backColor")` is a function from the page and the match to
  two index sets:
  - the elements that now carry the colour;
  - the elements under the selection's common ancestor that the loop
    inspects.

## Model

| member | source | states |
|---|---|---|
| Colour.RgbToHex | src/lib/utils.ts:8-16 | An input starting with "#" comes back unchanged. So does one with fewer than three runs of decimal digits. Every other result starts with "#". |
| Colour.RgbToHexIdempotent | src/lib/utils.ts:9-15 | Converting a converted value again changes nothing. |
| Colour.RgbToHexUsesFirstThreeRuns | src/lib/utils.ts:10-14 | Two inputs whose first three digit runs agree convert to the same value. Later runs, such as an alpha channel, have no effect. |
| Colour.RgbToHexOfByteComponents | src/lib/utils.ts:12-15 | When the first three runs are below 256, the result is "#" plus two lower-case hex digits per component, in red, green, blue order. |
| Colour.PackByteComponents | src/lib/utils.ts:15 | For byte components, the expression `((1 << 24) + (r << 16) + (g << 8) + b).toString(16).slice(1)` equals the six-digit triplet. |
| Colour.HexTripletDecodes | src/lib/utils.ts:15 | The triplet is a lower-case `#rrggbb` value whose three digit pairs decode back to r, g and b. |
| Colour.RgbToHexOfRgbFunction | src/lib/utils.ts:10-15 | "rgb(r, g, b)" with byte components converts to the triplet of r, g and b. |
| Colour.InlineRgbToHex | src/app/page.tsx:86-94 | The copy the page actually calls has no length guard. With one or two digit runs it returns "#aN". Otherwise it agrees with the guarded copy. |
| Colour.InlineRgbToHexDiffers | src/app/page.tsx:86-94 | The two copies agree exactly when the input starts with "#" or has zero or at least three digit runs. Where they differ, the page's copy does not yield a hex colour. |
| Colour.InlineRgbToHexOnOneRun | src/app/page.tsx:88-93 | On "var(--c1)" the page's copy returns "#aN" and the guarded copy returns the input. |
| Colour.AssignedColourRoundTrip | src/app/page.tsx:330-336 | Assigning a lower-case `#rrggbb` colour, reading it back as the browser serialises it, and converting gives the same colour. |
| Colour.PadHexString | src/app/page.tsx:319 | `n.toString(16).padStart(6, '0')` is the six-digit hex form of any n below 16^6. |
| Colour.TempColourFormat | src/app/page.tsx:319 | Every temporary colour is "#" plus six lower-case hex digits that decode back to the drawn number. |
| Colour.TempColourRoundTrip | src/app/page.tsx:319-330 | Painting with the temporary colour and converting the read-back value yields that colour again. This is the equality the claim test relies on. |
| Colour.ClaimTestAgrees | src/app/page.tsx:330 | For every span colour, the page's own copy and the guarded copy give the same answer to "does it convert to the temporary colour". So the claim test is the same whichever copy is used. |
| Whitespace.ReplaceBreaks | src/app/page.tsx:302 | The result contains no carriage return, line feed or tab. It is never longer than the input, and it is empty only for an empty input. |
| Whitespace.ReplaceBreaksAppend | src/app/page.tsx:302 | Two texts joined outside a run of breaks are processed separately and the results joined. |
| Whitespace.ReplaceBreaksOfRun | src/app/page.tsx:302 | A non-empty run made only of carriage returns, line feeds and tabs becomes exactly one space. |
| Whitespace.ReplaceBreaksFixes | src/app/page.tsx:302 | A text without breaks is left unchanged. With the two rows above, every maximal run of breaks becomes one space and every other character stays in place. |
| Whitespace.ReplaceBreaksKeepsWords | src/app/page.tsx:302 | The non-whitespace characters of the result are those of the input, in order. |
| Whitespace.CollapseSpaces | src/app/page.tsx:302 | No two adjacent whitespace characters remain. A result is empty only for an empty input, and it starts with whitespace exactly when the input does. |
| Whitespace.CollapseSpacesAppend | src/app/page.tsx:302 | Two texts joined outside a run of whitespace are collapsed separately and the results joined. |
| Whitespace.CollapseSpacesOfRun | src/app/page.tsx:302 | A run of two or more whitespace characters becomes one space. A single whitespace character stays as it is. |
| Whitespace.CollapseSpacesFixes | src/app/page.tsx:302 | A text without adjacent whitespace is left unchanged. With the two rows above, every other character stays in place. |
| Whitespace.CollapseSpacesKeepsWords | src/app/page.tsx:302 | The non-whitespace characters of the result are those of the input, in order. |
| Whitespace.Trim | src/app/page.tsx:302 | No leading or trailing whitespace remains. Having no breaks and no adjacent whitespace are both kept. |
| Whitespace.TrimOfPadded | src/app/page.tsx:302 | A text with no whitespace at either end, padded on both sides by whitespace, trims back to exactly that text. |
| Whitespace.TrimKeepsWords | src/app/page.tsx:302 | The non-whitespace characters of the result are those of the input, in order. |
| Whitespace.Normalise | src/app/page.tsx:302 | The result has no breaks, no adjacent whitespace and no leading or trailing whitespace. |
| Whitespace.NormaliseKeepsWords | src/app/page.tsx:302 | Normalising keeps every non-whitespace character, in order, and adds none. |
| Whitespace.SpaceRunNormalised | src/app/page.tsx:302 | After the two replacements, any whitespace run is one space, except a single character other than a carriage return, line feed or tab, which stays. |
| Whitespace.NormaliseJoinsWords | src/app/page.tsx:302 | Two normal texts joined by any whitespace run normalise to the two texts joined by one space, or by the run itself when it is a single such character. |
| Whitespace.NormaliseFixesExactlyNormal | src/app/page.tsx:302 | Normalising leaves a text unchanged if and only if it already has those three properties. |
| Whitespace.NormaliseIdempotent | src/app/page.tsx:302 | Normalising twice equals normalising once. |
| Whitespace.NormaliseBlankLines | src/app/page.tsx:302 | "a\n\nb" normalises to "a b". |
| Strings.Find | src/app/page.tsx:297 | The search hits if and only if the query is non-empty and occurs, ignoring case, at or after the cursor. A hit is the first such occurrence and lies inside the body. |
| Document.SyncAnnotations | src/app/page.tsx:96-127 | The scan changes only ids and timestamps. It writes a fresh one only on a highlighted element that lacks it and never overwrites a present one. Afterwards every highlighted element carries both. The list is the page's projection. A page already in that state comes back unchanged, so a second scan changes nothing and returns the same list. Each element is the scan's rule applied to the element at the same position. |
| Document.ProjectFollowsMarkedElements | src/app/page.tsx:104-122 | The list has exactly one entry per element with a non-empty, non-"transparent" background, in element order, read from that element. No other element contributes. |
| Document.ProjectAppend | src/app/page.tsx:104-122 | The list for two consecutive stretches of the page is the first stretch's list followed by the second's. |
| Document.FirstWithId | src/app/page.tsx:132 | The lookup by id finds the first element carrying it, or reports that none does. |
| Document.CountWithIdZero | src/app/page.tsx:196 | No element carries the id exactly when the count of carriers is zero. |
| Document.UpdateComment | src/app/page.tsx:132-138 | On the first element with the id, the comment is set when non-empty and removed when empty. Nothing else changes. An unknown id changes nothing. |
| Document.UpdateCommentReadsBack | src/app/page.tsx:129-141 | The handler's rescan, `SyncAnnotations`, differs only in that element's entry, whose comment is the new one or absent. A fully stamped page stays fully stamped, so the rescan writes nothing. |
| Document.Unmark | src/app/page.tsx:198-200 | The element loses its colour, id and timestamp and keeps its text and comment. |
| Document.Delete | src/app/page.tsx:196-200 | Only the first element carrying the id is unmarked, and nothing else changes. An unknown id changes nothing. |
| Document.DeleteRemovesOneEntry | src/app/page.tsx:196-201 | The next scan's list is the old list without the entry of the deleted element. |
| Document.DeleteKeepsSynced | src/app/page.tsx:196-201 | Deleting keeps a fully stamped page fully stamped. |
| Document.DeleteRemovesOneCarrier | src/app/page.tsx:196-201 | Exactly one fewer element carries the id. Other carriers of a shared id keep it. |
| Document.DeleteUnknownIsNoOp | src/app/page.tsx:196-197 | A delete for an id no element carries leaves the page as it was. |
| Document.ClearAll | src/app/page.tsx:206-221 | Every element carrying an id is unmarked, every other element is unchanged, and no id remains. |
| Document.ClearAllEmptiesList | src/app/page.tsx:206-221 | On a fully stamped page, no highlight survives, so a later scan yields the empty list the handler sets. |
| Reanchor.Search | src/app/page.tsx:297 | A tier's search hits exactly when its query is found. The match starts at the first occurrence at or after the cursor and spans the query. |
| Reanchor.Locate | src/app/page.tsx:296-315 | The first hit wins. The exact text is always tried. The normalised text is tried only if the exact search missed and normalising changes the text. The truncated text is tried only if both missed, the text ends in "..." and more than 15 UTF-16 code units precede that marker. A miss means every applicable tier missed. |
| Strings.Utf16Length | src/app/page.tsx:308-309 | JavaScript's `length`: between one and two units per character, exactly one each for characters of the Basic Multilingual Plane and exactly two each for characters outside it. |
| Strings.Utf16LengthAppend | src/app/page.tsx:308-309 | The length of a concatenation is the sum of the lengths. |
| Reanchor.TruncatedGateCountsCodeUnits | src/app/page.tsx:307-309 | Cutting "..." removes three characters. For text in the Basic Multilingual Plane the gate is "more than 15 characters before the marker"; for a prefix made only of characters outside that plane it is "more than 15 / 2 characters". |
| Reanchor.TenEmojiPassGate | src/app/page.tsx:307-309 | Ten emoji followed by "..." leave a ten-character prefix, and the truncated tier is still tried. |
| Reanchor.LocateFindsFirstOccurrence | src/app/page.tsx:296-315 | Whatever tier hits, the match lies at or after the cursor inside the body. It spans exactly that tier's query and is its first occurrence there. |
| Reanchor.LocateNormalisedExample | src/app/page.tsx:301-305 | Text saved as "a\n\nb" is found in a page reading "a b" by the normalised tier, at position 0. |
| Reanchor.Paint | src/app/page.tsx:320 | Exactly the covered elements take the colour, as the browser serialises it. |
| Reanchor.ClaimSpans | src/app/page.tsx:329-347 | An in-scope span whose converted colour equals the temporary colour takes the record's id, timestamp and colour, and its comment only when the record's comment is non-empty. Every other element is unchanged. |
| Reanchor.PaintedSpansAreClaimed | src/app/page.tsx:319-337 | Every in-scope span the paint reached is claimed. |
| Reanchor.ClaimedAreExactlyPainted | src/app/page.tsx:319-347 | If no in-scope span already carried the temporary colour, the claimed spans are exactly the in-scope spans the paint reached. |
| Reanchor.ClaimedSpanReadsBackAsRecord | src/app/page.tsx:330-336 | A claimed span is highlighted, and the next scan reads back the record's id, timestamp and colour. Its comment is the record's if the record has one, and otherwise the span's own. |
| Reanchor.ReanchorRecord | src/app/page.tsx:317-353 | A miss leaves the page, cursor, count and matches unchanged. A hit moves the cursor to the match's end, counts one and records the match. Elements the paint did not reach and the loop did not inspect stay exactly as they were. So does every element the paint did not reach that is not an in-scope span whose colour converts to the temporary colour, which keeps other highlights under the common ancestor intact. Text and element kinds never change. |
| Reanchor.ReanchorStampsPaintedSpans | src/app/page.tsx:317-347 | On a hit, every span the paint reached inside the scope is highlighted. The next scan reads it back as the record: the record's id, timestamp and colour, and the record's comment if it has one, otherwise the span's own. |
| Reanchor.RunBatchStampsRecord | src/app/page.tsx:293-347 | Handling record k extends the batch by one step with the k-th drawn temporary colour. When record k is found, every span its paint reached inside the scope reads back as record k afterwards, with the same comment rule. |
| Reanchor.ReanchorKeepsInvariant | src/app/page.tsx:285-353 | One record keeps the loop's invariant. There is one count per match, and every match is a non-empty range of the body. Matches are ordered and do not overlap. The cursor sits at the end of the last match. The page is unchanged while the count is zero. |
| Reanchor.RunBatch | src/app/page.tsx:293-354 | The loop handles records in file order, record k with the k-th drawn temporary colour. The page keeps its number of elements, and at most one record is counted per record handled. |
| Reanchor.RunBatchKeepsInvariant | src/app/page.tsx:285-354 | After any number of records the loop's invariant holds, with at most one placed match per record. |
| Reanchor.ImportBatch | src/app/page.tsx:285-354 | The loop starts at the beginning of the body and computes the record-by-record fold. The count is at most the number of records. Matches are non-empty, in increasing order and do not overlap. With no hit the page is unchanged. |
| Reanchor.HandleImport | src/app/page.tsx:268-366 | A file that is not JSON, or has no annotations array, changes nothing. Otherwise the result reports the count and the array's length, the count is at most the length, and the final scan leaves the page fully stamped with its list. The reported count is the batch's count, and each element of the resulting page is the batch's element at that position after the scan's stamping rule. With no hit on a fully stamped page, nothing changes. |
| Export.Insert | src/app/page.tsx:454-461 | Inserting adds exactly the one annotation, as a multiset. |
| Export.InsertKeepsSorted | src/app/page.tsx:454-461 | Inserting a resolving annotation into a sorted list of resolving annotations keeps it sorted. |
| Export.SortByKey | src/app/page.tsx:454-461 | The sorted list is a permutation of the input. |
| Export.SortByKeySorts | src/app/page.tsx:454-461 | When every key resolves, the sorted list is in ascending key order. |
| Export.SavedInDocumentOrder | src/app/page.tsx:451-461 | When every annotation's id is on the page, the saved list is in ascending document order of the first element carrying each id. |
| Export.Save | src/app/page.tsx:448-478 | The saved object carries the page's name, the clock reading and a permutation of the list. Without a loaded page the list is saved as it is. The download name is the export name of the page's name. |
| Export.ExtensionStart | src/app/page.tsx:474 | It finds the final extension (a dot followed by at least one character that is not a dot or slash, up to the end) or reports that there is none. |
| Export.ExtensionAtIsUnique | src/app/page.tsx:474 | A name has at most one such extension position. |
| Export.StripExtension | src/app/page.tsx:474 | The result is a prefix of the name. It is shorter exactly when the name ends in an extension, and it is then cut just before that extension's dot. |
| Export.StripExtensionRemovesExtension | src/app/page.tsx:474 | Stripping base + "." + ext gives the base when ext is non-empty and has no dot or slash. |
| Export.StripExtensionWithoutExtension | src/app/page.tsx:474 | A name without such an extension is kept whole. |
| Export.ExportName | src/app/page.tsx:474 | A missing or empty page name gives "annotations.json". Any other name gives its stripped form followed by "-annotations.json". |
| Export.HandleDrop | src/app/page.tsx:249-258 | A drop loads its first file if and only if there is one and its name ends in ".htm" or ".html". |
| Export.DroppedPageExportName | src/app/page.tsx:253 | A page accepted by a drop exports under its name without ".htm" or ".html", followed by "-annotations.json". |
| Export.UpperCaseExtensionRejected | src/app/page.tsx:253 | The name check is case-sensitive, so "PAGE.HTML" is refused. |
| Sidebar.Filter | src/components/sidebar-content.tsx:43-45 | An annotation is shown if and only if it is in the list and its lower-cased text contains the lower-cased query. The filtered list is never longer than the list. |
| Sidebar.FilterIsSubsequence | src/components/sidebar-content.tsx:43-45 | The filtered list is the kept annotations taken at their increasing positions in the list, entries unchanged. |
| Sidebar.EmptyQueryKeepsAll | src/components/sidebar-content.tsx:41-45 | With an empty search box every annotation is shown. |
| Sidebar.QueryCaseIgnored | src/components/sidebar-content.tsx:43-45 | Queries that lower-case alike show the same list. |
| Sidebar.Render | src/components/sidebar-content.tsx:53-104 | The badge equals the number of shown annotations. "Clear all" appears exactly when the list is non-empty. The placeholder appears exactly when the unfiltered list is empty. The shown list is the filtered list itself, duplicates and order included, so the badge is its length. |

## Left out

- React state, the iframe wiring, toasts, the clipboard and the Blob download are not modelled. They are user-interface plumbing. The handlers' early returns when no page is loaded are not modelled either.
- Zoom, the theme style injection, the scroll flash and the mouse-up settle delay are left out. They are presentation, pixel arithmetic and timers.
- Text handling is ASCII only. `toLowerCase` and `\s` are modelled on ASCII letters and ASCII whitespace, where JavaScript covers all of Unicode.
- Reanchor.Locate: text positions and match ranges are counted in characters. JavaScript counts UTF-16 code units, but the loop never reads a position; the one length it does compare, the truncated tier's `prefix.length > 15`, is counted in UTF-16 code units through `Strings.Utf16Length`.
- Strings.Find: `window.find` is modelled on a flat text. How the browser matches across element boundaries is not modelled.
- Reanchor.Paint: `execCommand("backColor")` is an oracle. How it splits or wraps elements is not modelled. The model keeps the element sequence fixed and only recolours elements.
- The "Import not supported in this browser" branch is not modelled. It depends on whether the browser offers `window.find`.
- Import records are modelled with string id, text, colour and timestamp and an optional comment. Records whose fields are missing or not strings are left out. In the source these behave differently:
  - A missing or non-string `text` makes the source throw a TypeError at `annotation.text.replace` (src/app/page.tsx:302) once the exact search misses. The rest of the batch is abandoned with the records so far applied. This partial effect is not modelled.
  - A missing `id` or `timestamp` is written as the string "undefined" (src/app/page.tsx:331-332). The model covers this as a record whose field is "undefined".
  - A missing `color` is ignored by the style (src/app/page.tsx:336), so the span keeps the temporary colour and the next scan lists it with that colour. The model does not cover this case, because `Colour.CssSerialize` treats a non-hex value as read back as written.
- The attribute-selector escaping of ids in `querySelector` is not modelled. Ids are compared as plain strings.
- Colour.RgbToHex: components are read as unbounded integers. Double-precision rounding, which affects only digit runs of 16 or more digits, is not modelled.
- Colour.CssSerialize: only assigned `#rrggbb` values are modelled as coming back in `rgb(r, g, b)` form. Every other value is taken to read back as written.
- Export.SortByKey: when some ids do not resolve, the source's comparator is inconsistent and the order is up to the JavaScript engine. The model keeps one stable order and promises only a permutation in that case.
- Export.SortByKeySorts: when two annotations have the same first carrier, the source's comparator returns 1 both ways (an element compared with itself has no following bit), so the engine may order them either way. The model still promises ascending key order, and it fixes one order among such entries, which an engine need not keep. The same holds for Export.SavedInDocumentOrder.
- Document.SyncAnnotations: the list colour is computed with the guarded `Colour.RgbToHex`, the corrected member of the finding below. The page calls its own copy (src/app/page.tsx:120), which gives "#aN" for a background with one or two digit runs, such as "var(--c1)". Those entries therefore differ from the source's as written; `Colour.InlineRgbToHexDiffers` states exactly where. The import loop's claim test is not affected, by `Colour.ClaimTestAgrees`.
- `cn` in src/lib/utils.ts is not modelled. It is a wrapper over class-name libraries.

## Findings

| source | as written | input that shows it | evidently intended | confidence | as-written member | corrected member |
|---|---|---|---|---|---|---|
| src/app/page.tsx:86-94 | The page's own `rgbToHex`, used by the scan and the import loop, checks only that some digit run exists. With one or two runs, `parseInt(undefined)` is NaN and the result is "#aN". | A background read back as "var(--c1)" | As in src/lib/utils.ts:11, return the input unchanged when there are fewer than three digit runs | not executed | Colour.InlineRgbToHexOnOneRun | Colour.RgbToHex |

The rest of the model uses the guarded conversion, `Colour.RgbToHex`.

=== FILE: colour.dfy ===
/** Colour strings: the `rgbToHex` conversion of src/lib/utils.ts (and the
    inline copy in src/app/page.tsx), the random temporary marker colour of
    the import loop, and the way a browser reads back a `#rrggbb` value
    assigned to `style.backgroundColor`.

    JavaScript numbers are doubles. The conversion parses decimal digit runs
    and combines them with 32-bit shifts; the model reproduces the shifts'
    32-bit wrap-around exactly and computes everything else with unbounded
    integers, which agrees with JavaScript as long as the components stay
    below 2^53. */
module Colour {
  import opened Strings
  import opened Sequences

  // ---------------------------------------------------------------------
  // Decimal digits

  predicate IsDigit(c: char) {
    '0' <= c <= '9'
  }

  predicate AllDigits(s: string) {
    forall i :: 0 <= i < |s| ==> IsDigit(s[i])
  }

  function DigitValue(c: char): (d: nat)
    requires IsDigit(c)
    ensures d < 10
  {
    c as int - '0' as int
  }

  function DigitChar(d: nat): (c: char)
    requires d < 10
    ensures IsDigit(c) && DigitValue(c) == d
  {
    ('0' as int + d) as char
  }

  /** Length of the run of decimal digits that starts `s`. */
  function DigitRunLength(s: string): (k: nat)
    ensures k <= |s|
    ensures AllDigits(s[..k])
    ensures k < |s| ==> !IsDigit(s[k])
  {
    if s == [] || !IsDigit(s[0]) then 0 else 1 + DigitRunLength(s[1..])
  }

  /** The maximal runs of decimal digits of `s`, left to right: the array
      `s.match(/\d+/g)` returns, with the empty sequence standing for its
      `null` (JavaScript's `\d` is exactly `[0-9]`). */
  function DigitRuns(s: string): (runs: seq<string>)
    ensures forall k :: 0 <= k < |runs| ==> runs[k] != [] && AllDigits(runs[k])
    decreases |s|
  {
    if s == [] then []
    else if !IsDigit(s[0]) then DigitRuns(s[1..])
    else
      var k := DigitRunLength(s);
      [s[..k]] + DigitRuns(s[k..])
  }

  /** `parseInt` of a string of decimal digits. */
  function ParseDecimal(d: string): nat
    requires AllDigits(d)
  {
    if d == [] then 0 else ParseDecimal(d[..|d| - 1]) * 10 + DigitValue(d[|d| - 1])
  }

  /** The decimal rendering of `n` without leading zeros, as CSS serialises a
      colour component. */
  function Decimal(n: nat): (s: string)
    ensures s != [] && AllDigits(s)
  {
    if n < 10 then [DigitChar(n)] else Decimal(n / 10) + [DigitChar(n % 10)]
  }

  lemma {:induction false} ParseDecimalOfDecimal(n: nat)
    ensures ParseDecimal(Decimal(n)) == n
  {
    if n >= 10 {
      ParseDecimalOfDecimal(n / 10);
      var s := Decimal(n);
      assert s[..|s| - 1] == Decimal(n / 10);
    }
  }

  lemma {:induction false} DigitRunLengthOfRun(d: string, rest: string)
    requires AllDigits(d)
    requires rest == [] || !IsDigit(rest[0])
    ensures DigitRunLength(d + rest) == |d|
  {
    if d != [] {
      assert (d + rest)[1..] == d[1..] + rest;
      DigitRunLengthOfRun(d[1..], rest);
    } else {
      assert d + rest == rest;
    }
  }

  /** A prefix without digits contributes no run. */
  lemma {:induction false} DigitRunsSkip(p: string, s: string)
    requires forall i :: 0 <= i < |p| ==> !IsDigit(p[i])
    ensures DigitRuns(p + s) == DigitRuns(s)
  {
    if p == [] {
      assert p + s == s;
    } else {
      assert (p + s)[1..] == p[1..] + s;
      DigitRunsSkip(p[1..], s);
    }
  }

  /** A maximal run of digits at the front is the first run. */
  lemma DigitRunsRun(d: string, s: string)
    requires d != [] && AllDigits(d)
    requires s == [] || !IsDigit(s[0])
    ensures DigitRuns(d + s) == [d] + DigitRuns(s)
  {
    DigitRunLengthOfRun(d, s);
    assert (d + s)[..|d|] == d;
    assert (d + s)[|d|..] == s;
  }

  // ---------------------------------------------------------------------
  // Hexadecimal digits

  predicate IsLowerHexDigit(c: char) {
    '0' <= c <= '9' || 'a' <= c <= 'f'
  }

  predicate IsHexDigit(c: char) {
    IsLowerHexDigit(c) || 'A' <= c <= 'F'
  }

  predicate AllLowerHex(s: string) {
    forall i :: 0 <= i < |s| ==> IsLowerHexDigit(s[i])
  }

  predicate AllHex(s: string) {
    forall i :: 0 <= i < |s| ==> IsHexDigit(s[i])
  }

  /** The lower-case digit `Number.prototype.toString(16)` writes for `d`. */
  function HexDigit(d: nat): (c: char)
    requires d < 16
    ensures IsLowerHexDigit(c)
  {
    if d < 10 then ('0' as int + d) as char else ('a' as int + d - 10) as char
  }

  function HexValue(c: char): (d: nat)
    requires IsHexDigit(c)
    ensures d < 16
  {
    if '0' <= c <= '9' then c as int - '0' as int
    else if 'a' <= c <= 'f' then c as int - 'a' as int + 10
    else c as int - 'A' as int + 10
  }

  /** Reading a written digit gives back its value. */
  lemma HexValueOfDigit(d: nat)
    requires d < 16
    ensures HexValue(HexDigit(d)) == d
  {
  }

  /** Writing a read lower-case digit gives back the digit. */
  lemma HexDigitOfValue(c: char)
    requires IsLowerHexDigit(c)
    ensures HexDigit(HexValue(c)) == c
  {
  }

  function Pow16(w: nat): (p: nat)
    ensures p >= 1
  {
    if w == 0 then 1 else 16 * Pow16(w - 1)
  }

  function Pow2(n: nat): (p: nat)
    ensures p >= 1
  {
    if n == 0 then 1 else 2 * Pow2(n - 1)
  }

  /** `n.toString(16)` for a non-negative integer: lower-case, no leading zeros. */
  function HexString(n: nat): (s: string)
    ensures s != [] && AllLowerHex(s)
  {
    if n < 16 then [HexDigit(n)] else HexString(n / 16) + [HexDigit(n % 16)]
  }

  /** The `w` least significant hexadecimal digits of `n`, most significant
      first, zero-filled. */
  function FixedHex(n: nat, w: nat): (s: string)
    ensures |s| == w && AllLowerHex(s)
  {
    if w == 0 then [] else FixedHex(n / 16, w - 1) + [HexDigit(n % 16)]
  }

  /** The value of a string of hexadecimal digits of either case. */
  function ParseHex(s: string): nat
    requires AllHex(s)
  {
    if s == [] then 0 else ParseHex(s[..|s| - 1]) * 16 + HexValue(s[|s| - 1])
  }

  lemma {:induction false} ParseHexBound(s: string)
    requires AllHex(s)
    ensures ParseHex(s) < Pow16(|s|)
  {
    if s != [] {
      ParseHexBound(s[..|s| - 1]);
    }
  }

  /** Reading back `w` fixed-width digits recovers any `n` below 16^w. */
  lemma {:induction false} ParseFixedHex(n: nat, w: nat)
    requires n < Pow16(w)
    ensures ParseHex(FixedHex(n, w)) == n
  {
    if w > 0 {
      ParseFixedHex(n / 16, w - 1);
      var s := FixedHex(n, w);
      assert s[..|s| - 1] == FixedHex(n / 16, w - 1);
      HexValueOfDigit(n % 16);
    }
  }

  /** Writing back a parsed lower-case digit string reproduces it. */
  lemma {:induction false} FixedHexOfParse(s: string)
    requires AllLowerHex(s)
    ensures FixedHex(ParseHex(s), |s|) == s
  {
    if s != [] {
      var init := s[..|s| - 1];
      var c := s[|s| - 1];
      FixedHexOfParse(init);
      HexDigitOfValue(c);
      var n := ParseHex(s);
      assert n / 16 == ParseHex(init) && n % 16 == HexValue(c);
      assert s == init + [c];
    }
  }

  lemma {:induction false} FixedHexOfZero(w: nat)
    ensures FixedHex(0, w) == Repeat('0', w)
  {
    if w > 0 {
      FixedHexOfZero(w - 1);
      assert Repeat('0', w) == Repeat('0', w - 1) + ['0'];
    }
  }

  /** One more digit at the end: `n` is `a` followed by the digit `d`, and
      `w` is the width with it. */
  lemma FixedHexDigit(n: nat, a: nat, d: nat, v: nat, w: nat)
    requires d < 16 && n == a * 16 + d && w == v + 1
    ensures FixedHex(n, w) == FixedHex(a, v) + [HexDigit(d)]
  {
    DivModSixteen(n, a, d);
  }

  /** The two digits of a byte. */
  lemma ByteHexDigits(c: nat)
    requires c < 256
    ensures FixedHex(c, 2) == [HexDigit(c / 16)] + [HexDigit(c % 16)]
  {
    FixedHexDigit(c, c / 16, c % 16, 1, 2);
    FixedHexDigit(c / 16, 0, c / 16, 0, 1);
  }

  lemma DivModSixteen(n: nat, m: nat, d: nat)
    requires n == 16 * m + d && d < 16
    ensures n / 16 == m && n % 16 == d
  {
  }

  /** A number with a single leading 1 digit above `w` digits prints as "1"
      followed by those `w` digits. */
  lemma {:induction false} HexStringLeadingOne(x: nat, w: nat)
    requires x < Pow16(w)
    ensures HexString(Pow16(w) + x) == "1" + FixedHex(x, w)
  {
    if w > 0 {
      var n := Pow16(w) + x;
      assert n == 16 * (Pow16(w - 1) + x / 16) + x % 16;
      assert n / 16 == Pow16(w - 1) + x / 16 && n % 16 == x % 16;
      HexStringLeadingOne(x / 16, w - 1);
    }
  }

  function Repeat(c: char, n: nat): (s: string)
    ensures |s| == n && forall i :: 0 <= i < n ==> s[i] == c
  {
    if n == 0 then [] else Repeat(c, n - 1) + [c]
  }

  /** `s.padStart(w, c)` with a one-character pad. */
  function PadStart(s: string, w: nat, c: char): (r: string)
    ensures |r| == if |s| >= w then |s| else w
  {
    if |s| >= w then s else Repeat(c, w - |s|) + s
  }

  lemma {:induction false} PadHexString(n: nat, w: nat)
    requires 1 <= w && n < Pow16(w)
    ensures |HexString(n)| <= w
    ensures PadStart(HexString(n), w, '0') == FixedHex(n, w)
  {
    if n < 16 {
      FixedHexOfZero(w - 1);
      assert FixedHex(n, w) == FixedHex(0, w - 1) + [HexDigit(n)];
    } else {
      assert Pow16(1) == 16;
      PadHexString(n / 16, w - 1);
      var h := HexString(n / 16);
      assert HexString(n) == h + [HexDigit(n % 16)];
      assert Repeat('0', w - 1 - |h|) + h + [HexDigit(n % 16)] == Repeat('0', w - |HexString(n)|) + HexString(n);
    }
  }

  // ---------------------------------------------------------------------
  // JavaScript number semantics used by the conversion

  /** ECMAScript ToInt32 of an integer-valued number. */
  function Int32(x: int): (r: int)
    ensures -0x8000_0000 <= r < 0x8000_0000
    ensures (r - x) % 0x1_0000_0000 == 0
    ensures -0x8000_0000 <= x < 0x8000_0000 ==> r == x
  {
    var m := x % 0x1_0000_0000;
    if m >= 0x8000_0000 then m - 0x1_0000_0000 else m
  }

  /** `x << bits` on numbers: both operands go through ToInt32 and the result
      wraps to 32 bits. */
  function Shl(x: int, bits: nat): int
    requires bits < 32
  {
    Int32(Int32(x) * Pow2(bits))
  }

  /** `v.toString(16)` for an integer `v`, including the minus sign. */
  function JsHexString(v: int): string {
    if v < 0 then "-" + HexString(-v) else HexString(v)
  }

  /** `s.slice(1)`. */
  function DropFirst(s: string): string {
    if s == [] then s else s[1..]
  }

  // ---------------------------------------------------------------------
  // The #rrggbb format

  predicate IsHexColour(v: string) {
    |v| == 7 && v[0] == '#' && AllHex(v[1..])
  }

  predicate IsLowerHexColour(v: string) {
    |v| == 7 && v[0] == '#' && AllLowerHex(v[1..])
  }

  /** `#rrggbb` with two lower-case digits per component. */
  function HexTriplet(r: nat, g: nat, b: nat): (h: string)
    requires r < 256 && g < 256 && b < 256
  {
    "#" + FixedHex(r, 2) + FixedHex(g, 2) + FixedHex(b, 2)
  }

  /** A formatted triplet is a lower-case colour whose digit pairs decode to
      the red, green and blue components in that order. */
  lemma HexTripletDecodes(r: nat, g: nat, b: nat)
    requires r < 256 && g < 256 && b < 256
    ensures IsLowerHexColour(HexTriplet(r, g, b))
    ensures ParseHex(HexTriplet(r, g, b)[1..3]) == r
    ensures ParseHex(HexTriplet(r, g, b)[3..5]) == g
    ensures ParseHex(HexTriplet(r, g, b)[5..7]) == b
  {
    var h := HexTriplet(r, g, b);
    assert h[1..3] == FixedHex(r, 2) && h[3..5] == FixedHex(g, 2) && h[5..7] == FixedHex(b, 2);
    ParseFixedHex(r, 2);
    ParseFixedHex(g, 2);
    ParseFixedHex(b, 2);
  }

  // ---------------------------------------------------------------------
  // rgbToHex

  /** `"#" + ((1 << 24) + (r << 16) + (g << 8) + b).toString(16).slice(1)`. */
  function PackComponents(r: nat, g: nat, b: nat): string {
    "#" + DropFirst(JsHexString(Shl(1, 24) + Shl(r, 16) + Shl(g, 8) + b))
  }

  lemma PowersUsed()
    ensures Pow2(8) == 256 && Pow2(16) == 65536 && Pow2(24) == 16777216
    ensures Pow16(2) == 256 && Pow16(4) == 65536 && Pow16(6) == 16777216
  {
  }

  /** For byte components none of the shifts overflows: the packed number is
      16^6 plus the components' 24-bit value. */
  lemma ShiftsOfByteComponents(r: nat, g: nat, b: nat)
    requires r < 256 && g < 256 && b < 256
    ensures Shl(1, 24) + Shl(r, 16) + Shl(g, 8) + b == Pow16(6) + ((r * 256 + g) * 256 + b)
    ensures (r * 256 + g) * 256 + b < Pow16(6)
  {
    PowersUsed();
    assert r * 65536 <= 255 * 65536;
    assert g * 256 <= 255 * 256;
    assert Shl(r, 16) == r * 65536;
    assert Shl(g, 8) == g * 256;
    assert r * 256 + g <= 255 * 256 + 255;
    assert (r * 256 + g) * 256 <= (255 * 256 + 255) * 256;
  }

  /** Two more digits at the end, those of a byte: `w` is the width with
      them (the widths are parameters so that the digit functions are
      matched rather than unfolded). */
  lemma FixedHexPair(a: nat, c: nat, v: nat, w: nat)
    requires c < 256 && w == v + 2
    ensures FixedHex(a * 256 + c, w) == FixedHex(a, v) + FixedHex(c, 2)
  {
    var hi, lo := c / 16, c % 16;
    FixedHexDigit(a * 256 + c, a * 16 + hi, lo, v + 1, w);
    FixedHexDigit(a * 16 + hi, a, hi, v, v + 1);
    ByteHexDigits(c);
    AppendAssoc(FixedHex(a, v), [HexDigit(hi)], [HexDigit(lo)]);
  }

  /** Three bytes after a prefix of width `u` split into pairs. */
  lemma FixedHexOfPairs(r: nat, g: nat, b: nat, u: nat, v: nat, w: nat)
    requires g < 256 && b < 256 && v == u + 2 && w == v + 2
    ensures FixedHex((r * 256 + g) * 256 + b, w) == FixedHex(r, u) + FixedHex(g, 2) + FixedHex(b, 2)
  {
    FixedHexPair(r * 256 + g, b, v, w);
    FixedHexPair(r, g, u, v);
  }

  /** Six digits split into three pairs. */
  lemma FixedHexOfBytes(r: nat, g: nat, b: nat)
    requires r < 256 && g < 256 && b < 256
    ensures FixedHex((r * 256 + g) * 256 + b, 6) == FixedHex(r, 2) + FixedHex(g, 2) + FixedHex(b, 2)
  {
    FixedHexOfPairs(r, g, b, 2, 4, 6);
  }

  /** With byte components the packed number prints as a 1 followed by two
      digits per component, and dropping the 1 leaves the triplet. */
  lemma PackByteComponents(r: nat, g: nat, b: nat)
    requires r < 256 && g < 256 && b < 256
    ensures PackComponents(r, g, b) == HexTriplet(r, g, b)
  {
    ShiftsOfByteComponents(r, g, b);
    var x := (r * 256 + g) * 256 + b;
    HexStringLeadingOne(x, 6);
    assert JsHexString(Pow16(6) + x) == "1" + FixedHex(x, 6);
    assert PackComponents(r, g, b) == "#" + FixedHex(x, 6);
    FixedHexOfBytes(r, g, b);
  }

  /** `rgbToHex` of src/lib/utils.ts: a string already starting with "#" is
      returned as is, so is one with fewer than three digit runs; otherwise
      the first three runs are the red, green and blue components. */
  function RgbToHex(rgb: string): (hex: string)
    ensures StartsWith(rgb, "#") ==> hex == rgb
    ensures |DigitRuns(rgb)| < 3 ==> hex == rgb
    ensures hex == rgb || StartsWith(hex, "#")
  {
    if StartsWith(rgb, "#") then rgb
    else
      var runs := DigitRuns(rgb);
      if |runs| < 3 then rgb
      else PackComponents(ParseDecimal(runs[0]), ParseDecimal(runs[1]), ParseDecimal(runs[2]))
  }

  /** Converting twice is converting once. */
  lemma RgbToHexIdempotent(rgb: string)
    ensures RgbToHex(RgbToHex(rgb)) == RgbToHex(rgb)
  {
  }

  /** Only the first three digit runs matter: an alpha component or any other
      later number cannot change the result. */
  lemma RgbToHexUsesFirstThreeRuns(a: string, b: string)
    requires !StartsWith(a, "#") && !StartsWith(b, "#")
    requires |DigitRuns(a)| >= 3 && |DigitRuns(b)| >= 3
    requires DigitRuns(a)[..3] == DigitRuns(b)[..3]
    ensures RgbToHex(a) == RgbToHex(b)
  {
    assert DigitRuns(a)[0] == DigitRuns(b)[0];
    assert DigitRuns(a)[1] == DigitRuns(b)[1];
    assert DigitRuns(a)[2] == DigitRuns(b)[2];
  }

  /** With components in 0..255 the result is the `#rrggbb` triplet of the
      first three runs. */
  lemma RgbToHexOfByteComponents(rgb: string)
    requires !StartsWith(rgb, "#") && |DigitRuns(rgb)| >= 3
    requires ParseDecimal(DigitRuns(rgb)[0]) < 256
    requires ParseDecimal(DigitRuns(rgb)[1]) < 256
    requires ParseDecimal(DigitRuns(rgb)[2]) < 256
    ensures RgbToHex(rgb) == HexTriplet(ParseDecimal(DigitRuns(rgb)[0]),
                                        ParseDecimal(DigitRuns(rgb)[1]),
                                        ParseDecimal(DigitRuns(rgb)[2]))
  {
    var runs := DigitRuns(rgb);
    PackByteComponents(ParseDecimal(runs[0]), ParseDecimal(runs[1]), ParseDecimal(runs[2]));
  }

  /** The inline copy of `rgbToHex` in src/app/page.tsx, as written. It only
      rejects a string with no digit run at all, so with one or two runs the
      missing components are `parseInt(undefined)`, which is NaN; the packed
      sum is NaN and the result is "#" + "NaN".slice(1), that is "#aN". */
  function InlineRgbToHex(rgb: string): (hex: string)
    ensures StartsWith(rgb, "#") || DigitRuns(rgb) == [] ==> hex == rgb
    ensures !StartsWith(rgb, "#") && 0 < |DigitRuns(rgb)| < 3 ==> hex == "#aN"
    ensures !StartsWith(rgb, "#") && |DigitRuns(rgb)| >= 3 ==> hex == RgbToHex(rgb)
  {
    if StartsWith(rgb, "#") then rgb
    else
      var runs := DigitRuns(rgb);
      if |runs| == 0 then rgb
      else if |runs| < 3 then "#" + DropFirst("NaN")
      else PackComponents(ParseDecimal(runs[0]), ParseDecimal(runs[1]), ParseDecimal(runs[2]))
  }

  /** The two copies agree everywhere except on strings with one or two digit
      runs, where the guarded copy returns its input and the inline copy
      returns "#aN", which is not a colour. */
  lemma InlineRgbToHexDiffers(rgb: string)
    ensures InlineRgbToHex(rgb) == RgbToHex(rgb)
        <==> StartsWith(rgb, "#") || |DigitRuns(rgb)| == 0 || |DigitRuns(rgb)| >= 3
    ensures InlineRgbToHex(rgb) != RgbToHex(rgb) ==> !IsHexColour(InlineRgbToHex(rgb))
  {
    if !StartsWith(rgb, "#") && 0 < |DigitRuns(rgb)| < 3 {
      assert StartsWith("#aN", "#");
    }
  }

  /** An inline style such as `background-color: var(--c1)` reads back with a
      single digit run: the inline copy turns it into "#aN" while the guarded
      copy leaves it alone. */
  lemma InlineRgbToHexOnOneRun()
    ensures InlineRgbToHex("var(--c1)") == "#aN"
    ensures RgbToHex("var(--c1)") == "var(--c1)"
  {
    var t := ")";
    assert DigitRuns(t) == [] by {
      assert t[1..] == [];
    }
    DigitRunsRun("1", t);
    DigitRunsSkip("var(--c", "1" + t);
    assert "var(--c1)" == "var(--c" + ("1" + t);
    assert DigitRuns("var(--c1)") == ["1"];
  }

  // ---------------------------------------------------------------------
  // CSS serialisation of an assigned colour

  /** `rgb(r, g, b)`, the form in which a browser reports an opaque colour. */
  function RgbFunction(r: nat, g: nat, b: nat): string {
    "rgb(" + (Decimal(r) + (", " + (Decimal(g) + (", " + (Decimal(b) + ")")))))
  }

  /** The value read back from `style.backgroundColor` after `value` was
      assigned: a `#rrggbb` colour (either case) comes back as `rgb(r, g, b)`,
      anything else comes back as written. */
  function CssSerialize(value: string): (css: string)
    ensures IsHexColour(value) ==> css == RgbFunction(ParseHex(value[1..3]), ParseHex(value[3..5]), ParseHex(value[5..7]))
    ensures !IsHexColour(value) ==> css == value
  {
    if IsHexColour(value)
    then RgbFunction(ParseHex(value[1..3]), ParseHex(value[3..5]), ParseHex(value[5..7]))
    else value
  }

  /** A digit-free separator followed by a run followed by a digit-free
      character contributes exactly that run. */
  lemma DigitRunsOfSeparatedRun(sep: string, d: string, rest: string)
    requires forall i :: 0 <= i < |sep| ==> !IsDigit(sep[i])
    requires d != [] && AllDigits(d)
    requires rest != [] && !IsDigit(rest[0])
    ensures DigitRuns(sep + (d + rest)) == [d] + DigitRuns(rest)
  {
    DigitRunsSkip(sep, d + rest);
    DigitRunsRun(d, rest);
  }

  /** The digit runs of `, g, b)`. */
  lemma DigitRunsOfRgbTail(g: nat, b: nat)
    ensures DigitRuns(", " + (Decimal(g) + (", " + (Decimal(b) + ")")))) == [Decimal(g), Decimal(b)]
  {
    var t := ")";
    assert DigitRuns(t) == [] by {
      assert t[1..] == [];
    }
    DigitRunsOfSeparatedRun(", ", Decimal(b), t);
    DigitRunsOfSeparatedRun(", ", Decimal(g), ", " + (Decimal(b) + t));
  }

  /** The digit runs of `rgb(r, g, b)` are the three decimal components. */
  lemma DigitRunsOfRgbFunction(r: nat, g: nat, b: nat)
    ensures DigitRuns(RgbFunction(r, g, b)) == [Decimal(r), Decimal(g), Decimal(b)]
  {
    var tail := ", " + (Decimal(g) + (", " + (Decimal(b) + ")")));
    DigitRunsOfRgbTail(g, b);
    DigitRunsOfSeparatedRun("rgb(", Decimal(r), tail);
  }

  /** `rgbToHex` undoes the browser's `rgb(r, g, b)` serialisation. */
  lemma RgbToHexOfRgbFunction(r: nat, g: nat, b: nat)
    requires r < 256 && g < 256 && b < 256
    ensures RgbToHex(RgbFunction(r, g, b)) == HexTriplet(r, g, b)
  {
    var s := RgbFunction(r, g, b);
    DigitRunsOfRgbFunction(r, g, b);
    assert s[0] == 'r';
    ParseDecimalOfDecimal(r);
    ParseDecimalOfDecimal(g);
    ParseDecimalOfDecimal(b);
    RgbToHexOfByteComponents(s);
  }

  lemma SplitColour(c: string)
    requires |c| == 7 && c[0] == '#'
    ensures c == "#" + c[1..3] + c[3..5] + c[5..7]
  {
    assert c[..1] == "#";
    assert c == c[..1] + c[1..3] + c[3..5] + c[5..7];
  }

  /** Two lower-case hex digits are one byte, written back unchanged. */
  lemma HexPair(s: string)
    requires |s| == 2 && AllLowerHex(s)
    ensures ParseHex(s) < 256 && FixedHex(ParseHex(s), 2) == s
  {
    PowersUsed();
    ParseHexBound(s);
    FixedHexOfParse(s);
  }

  /** A lower-case `#rrggbb` colour is the triplet of its own components. */
  lemma LowerHexColourIsTriplet(c: string)
    requires IsLowerHexColour(c)
    ensures IsHexColour(c)
    ensures ParseHex(c[1..3]) < 256 && ParseHex(c[3..5]) < 256 && ParseHex(c[5..7]) < 256
    ensures c == HexTriplet(ParseHex(c[1..3]), ParseHex(c[3..5]), ParseHex(c[5..7]))
  {
    HexPair(c[1..3]);
    HexPair(c[3..5]);
    HexPair(c[5..7]);
    SplitColour(c);
  }

  /** A lower-case `#rrggbb` colour survives being assigned to the style and
      read back through `rgbToHex`; this is how an imported colour and the
      temporary marker colour are recognised after painting. */
  lemma AssignedColourRoundTrip(c: string)
    requires IsLowerHexColour(c)
    ensures RgbToHex(CssSerialize(c)) == c
  {
    LowerHexColourIsTriplet(c);
    RgbToHexOfRgbFunction(ParseHex(c[1..3]), ParseHex(c[3..5]), ParseHex(c[5..7]));
  }

  // ---------------------------------------------------------------------
  // The temporary marker colour of the import loop

  /** A value of `Math.floor(Math.random() * 16777215)`. */
  type ColourIndex = n: nat | n < 16777215

  /** `"#" + n.toString(16).padStart(6, '0')`. */
  function TempColour(n: ColourIndex): string {
    "#" + PadStart(HexString(n), 6, '0')
  }

  /** Every temporary colour is a lower-case `#rrggbb` value whose six digits
      encode the drawn number. */
  lemma TempColourFormat(n: ColourIndex)
    ensures TempColour(n) == "#" + FixedHex(n, 6)
    ensures IsLowerHexColour(TempColour(n))
    ensures ParseHex(TempColour(n)[1..]) == n
  {
    assert Pow16(6) == 16777216;
    PadHexString(n, 6);
    assert TempColour(n)[1..] == FixedHex(n, 6);
    ParseFixedHex(n, 6);
  }

  /** The equality the import loop relies on: painting with the temporary
      colour and reading the span's colour back through `rgbToHex` gives the
      temporary colour again. */
  lemma TempColourRoundTrip(n: ColourIndex)
    ensures RgbToHex(CssSerialize(TempColour(n))) == TempColour(n)
  {
    TempColourFormat(n);
    AssignedColourRoundTrip(TempColour(n));
  }

  /** The page's claim test compares the converted span colour with the
      temporary colour; on that comparison the page's own copy and the guarded
      copy always give the same answer, whatever the span's colour is. */
  lemma ClaimTestAgrees(x: string, n: ColourIndex)
    ensures InlineRgbToHex(x) == TempColour(n) <==> RgbToHex(x) == TempColour(n)
  {
    TempColourFormat(n);
    LowerHexColourIsTriplet(TempColour(n));
    InlineRgbToHexDiffers(x);
  }
}

=== FILE: document.dfy ===
/** The live page reduced to what the annotation engine sees: its elements in
    document order (the order of `getElementsByTagName("*")`), each with its
    rendered text, its inline background colour as the browser reports it,
    its three `data-` attributes and whether it is a `<span>`.

    Covers `syncAnnotations`, `updateAnnotationComment`, `deleteAnnotation`
    and `clearAllAnnotations` of src/app/page.tsx. */
module Document {
  import opened Options
  import opened Colour
  import opened Sequences

  /** One element of the page. An attribute that is absent is `None`; one
      that is present with an empty value is `Some("")`. */
  datatype Element = Element(
    text: string,
    background: string,
    id: Option<string>,
    timestamp: Option<string>,
    comment: Option<string>,
    isSpan: bool)

  /** One entry of the annotation list. */
  datatype Annotation = Annotation(
    id: string,
    text: string,
    color: string,
    timestamp: string,
    comment: Option<string>)

  /** The values `crypto.randomUUID()` and `new Date().toISOString()` produce
      are never empty. */
  type NonEmpty = s: string | s != [] witness "-"

  /** The JavaScript truthiness of `getAttribute(…)`: present and non-empty. */
  predicate Present(attr: Option<string>) {
    attr.Some? && attr.value != ""
  }

  /** An element is highlighted when its background is neither empty nor
      "transparent". */
  predicate Marked(e: Element) {
    e.background != "" && e.background != "transparent"
  }

  /** Every highlighted element carries a non-empty id and timestamp. */
  predicate Synced(els: seq<Element>) {
    forall i :: 0 <= i < |els| && Marked(els[i]) ==> Present(els[i].id) && Present(els[i].timestamp)
  }

  /** The list entry a highlighted element stands for once it is stamped. */
  function Record(e: Element): Annotation {
    Annotation(e.id.GetOr(""), e.text, RgbToHex(e.background), e.timestamp.GetOr(""),
               if Present(e.comment) then e.comment else None)
  }

  /** The annotation list a document stands for: one entry per highlighted
      element, in document order. */
  function Project(els: seq<Element>): seq<Annotation> {
    if els == [] then []
    else
      var last := els[|els| - 1];
      Project(els[..|els| - 1]) + (if Marked(last) then [Record(last)] else [])
  }

  /** The positions of the highlighted elements, ascending. */
  function MarkedPositions(els: seq<Element>): (ps: seq<nat>)
    ensures forall k :: 0 <= k < |ps| ==> ps[k] < |els| && Marked(els[ps[k]])
    ensures forall k, l :: 0 <= k < l < |ps| ==> ps[k] < ps[l]
    ensures forall i :: 0 <= i < |els| && Marked(els[i]) ==> i in ps
  {
    if els == [] then []
    else
      var n := |els| - 1;
      MarkedPositions(els[..n]) + (if Marked(els[n]) then [n] else [])
  }

  /** The list holds exactly one entry per highlighted element, in the order
      of the elements, and nothing for any other element. */
  lemma {:induction false} ProjectFollowsMarkedElements(els: seq<Element>)
    ensures |Project(els)| == |MarkedPositions(els)|
    ensures forall k :: 0 <= k < |Project(els)| ==> Project(els)[k] == Record(els[MarkedPositions(els)[k]])
  {
    if els != [] {
      var n := |els| - 1;
      ProjectFollowsMarkedElements(els[..n]);
    }
  }

  lemma {:induction false} ProjectAppend(a: seq<Element>, b: seq<Element>)
    ensures Project(a + b) == Project(a) + Project(b)
    decreases |b|
  {
    if b == [] {
      assert a + b == a;
    } else {
      var n := |b| - 1;
      assert (a + b)[..|a + b| - 1] == a + b[..n];
      ProjectAppend(a, b[..n]);
    }
  }

  /** Scanning one more element adds its entry when it is highlighted. */
  lemma ProjectSnoc(els: seq<Element>, e: Element)
    ensures Project(els + [e]) == Project(els) + (if Marked(e) then [Record(e)] else [])
  {
    assert (els + [e])[..|els|] == els;
  }

  /** The list of a document split round position `k`. */
  lemma ProjectAround(els: seq<Element>, k: nat)
    requires k < |els|
    ensures Project(els) == Project(els[..k]) + Project([els[k]]) + Project(els[k + 1..])
  {
    var a, b, c := els[..k], [els[k]], els[k + 1..];
    SplitAround(els, k);
    ProjectAppend(a + b, c);
    ProjectAppend(a, b);
  }

  // ---------------------------------------------------------------------
  // syncAnnotations

  /** What the scan does to one element at position `i`: a highlighted
      element missing its id or timestamp gets a fresh one; nothing else is
      written. */
  function Stamp(e: Element, i: nat, newId: nat -> NonEmpty, clock: nat -> NonEmpty): Element {
    if !Marked(e) then e
    else e.(id := if Present(e.id) then e.id else Some(newId(i)),
            timestamp := if Present(e.timestamp) then e.timestamp else Some(clock(i)))
  }

  /** Element by element, the scan's rule keeps everything but the id and
      timestamp, fills in exactly the missing ones on highlighted elements,
      and leaves a fully stamped page as it was. */
  lemma StampedFacts(els: seq<Element>, stamped: seq<Element>, newId: nat -> NonEmpty, clock: nat -> NonEmpty)
    requires |stamped| == |els|
    requires forall j :: 0 <= j < |els| ==> stamped[j] == Stamp(els[j], j, newId, clock)
    ensures forall i :: 0 <= i < |els| ==>
      stamped[i].text == els[i].text && stamped[i].background == els[i].background &&
      stamped[i].comment == els[i].comment && stamped[i].isSpan == els[i].isSpan
    ensures forall i :: 0 <= i < |els| && !Marked(els[i]) ==> stamped[i] == els[i]
    ensures forall i :: 0 <= i < |els| && Present(els[i].id) ==> stamped[i].id == els[i].id
    ensures forall i :: 0 <= i < |els| && Present(els[i].timestamp) ==> stamped[i].timestamp == els[i].timestamp
    ensures forall i :: 0 <= i < |els| && Marked(els[i]) && !Present(els[i].id) ==> stamped[i].id == Some(newId(i))
    ensures forall i :: 0 <= i < |els| && Marked(els[i]) && !Present(els[i].timestamp) ==> stamped[i].timestamp == Some(clock(i))
    ensures Synced(stamped)
    ensures Synced(els) ==> stamped == els
  {
  }

  /** `syncAnnotations`: walks the elements in document order, stamps a fresh
      id (from `newId`, standing for `crypto.randomUUID`) and a timestamp
      (from `clock`, standing for `new Date().toISOString()`) onto every
      highlighted element that lacks one, and builds one list entry per
      highlighted element. */
  method SyncAnnotations(els: seq<Element>, newId: nat -> NonEmpty, clock: nat -> NonEmpty)
    returns (stamped: seq<Element>, anns: seq<Annotation>)
    ensures |stamped| == |els|
    ensures forall i :: 0 <= i < |els| ==>
      stamped[i].text == els[i].text && stamped[i].background == els[i].background &&
      stamped[i].comment == els[i].comment && stamped[i].isSpan == els[i].isSpan
    ensures forall i :: 0 <= i < |els| && !Marked(els[i]) ==> stamped[i] == els[i]
    ensures forall i :: 0 <= i < |els| && Present(els[i].id) ==> stamped[i].id == els[i].id
    ensures forall i :: 0 <= i < |els| && Present(els[i].timestamp) ==> stamped[i].timestamp == els[i].timestamp
    ensures forall i :: 0 <= i < |els| && Marked(els[i]) && !Present(els[i].id) ==> stamped[i].id == Some(newId(i))
    ensures forall i :: 0 <= i < |els| && Marked(els[i]) && !Present(els[i].timestamp) ==> stamped[i].timestamp == Some(clock(i))
    ensures forall i :: 0 <= i < |els| ==> stamped[i] == Stamp(els[i], i, newId, clock)
    ensures Synced(stamped)
    ensures anns == Project(stamped)
    ensures Synced(els) ==> stamped == els
  {
    stamped := [];
    anns := [];
    var i := 0;
    while i < |els|
      invariant 0 <= i <= |els|
      invariant |stamped| == i
      invariant forall j :: 0 <= j < i ==> stamped[j] == Stamp(els[j], j, newId, clock)
      invariant anns == Project(stamped)
    {
      var el := els[i];
      if el.background != "" && el.background != "transparent" {
        var id := if Present(el.id) then el.id.value else newId(i);
        el := el.(id := Some(id));
        if !Present(el.timestamp) {
          el := el.(timestamp := Some(clock(i)));
        }
        var comment := if Present(el.comment) then el.comment else None;
        anns := anns + [Annotation(id, el.text, RgbToHex(el.background), el.timestamp.value, comment)];
      }
      assert el == Stamp(els[i], i, newId, clock);
      assert anns == Project(stamped + [el]) by {
        ProjectSnoc(stamped, el);
      }
      stamped := stamped + [el];
      i := i + 1;
    }
    StampedFacts(els, stamped, newId, clock);
  }

  // ---------------------------------------------------------------------
  // Looking an element up by id

  /** `querySelector('[data-annotation-id="id"]')`: the first element, in
      document order, whose id attribute equals `id`. */
  function FirstWithId(els: seq<Element>, id: string): (k: Option<nat>)
    ensures k.Some? ==> k.value < |els| && els[k.value].id == Some(id)
    ensures k.Some? ==> forall j :: 0 <= j < k.value ==> els[j].id != Some(id)
    ensures k.None? ==> forall j :: 0 <= j < |els| ==> els[j].id != Some(id)
  {
    if els == [] then None
    else if els[0].id == Some(id) then Some(0)
    else
      match FirstWithId(els[1..], id)
      case None => None
      case Some(k) => Some(k + 1)
  }

  /** How many elements carry `id`; several may, since an import stamps one
      id onto every span it painted. */
  function CountWithId(els: seq<Element>, id: string): nat {
    if els == [] then 0
    else CountWithId(els[..|els| - 1], id) + (if els[|els| - 1].id == Some(id) then 1 else 0)
  }

  lemma {:induction false} CountWithIdAppend(a: seq<Element>, b: seq<Element>, id: string)
    ensures CountWithId(a + b, id) == CountWithId(a, id) + CountWithId(b, id)
    decreases |b|
  {
    if b == [] {
      assert a + b == a;
    } else {
      var n := |b| - 1;
      assert (a + b)[..|a + b| - 1] == a + b[..n];
      CountWithIdAppend(a, b[..n], id);
    }
  }

  lemma {:induction false} CountWithIdZero(els: seq<Element>, id: string)
    ensures CountWithId(els, id) == 0 <==> forall j :: 0 <= j < |els| ==> els[j].id != Some(id)
  {
    if els != [] {
      CountWithIdZero(els[..|els| - 1], id);
    }
  }

  // ---------------------------------------------------------------------
  // updateAnnotationComment

  /** `updateAnnotationComment`: on the first element carrying `id`, sets the
      comment attribute, or removes it when the new comment is empty; with no
      such element the document is left alone. */
  function UpdateComment(els: seq<Element>, id: string, comment: string): (r: seq<Element>)
    ensures |r| == |els|
    ensures FirstWithId(els, id).None? ==> r == els
    ensures FirstWithId(els, id).Some? ==>
      var k := FirstWithId(els, id).value;
      r[k] == els[k].(comment := if comment != "" then Some(comment) else None) &&
      forall j :: 0 <= j < |els| && j != k ==> r[j] == els[j]
  {
    match FirstWithId(els, id)
    case None => els
    case Some(k) => els[k := els[k].(comment := if comment != "" then Some(comment) else None)]
  }

  /** After a comment update on the element at position `k` the list keeps
      every entry; the entry of that element reads back the new comment (none
      for an empty one) and is otherwise unchanged. */
  lemma UpdateCommentReadsBack(els: seq<Element>, id: string, comment: string, k: nat)
    requires FirstWithId(els, id) == Some(k)
    ensures Project(els) == Project(els[..k]) + Project([els[k]]) + Project(els[k + 1..])
    ensures Project(UpdateComment(els, id, comment))
         == Project(els[..k]) + Project([UpdateComment(els, id, comment)[k]]) + Project(els[k + 1..])
    ensures Record(UpdateComment(els, id, comment)[k])
         == Record(els[k]).(comment := if comment != "" then Some(comment) else None)
    ensures Synced(els) ==> Synced(UpdateComment(els, id, comment))
  {
    var r := UpdateComment(els, id, comment);
    ProjectAround(els, k);
    assert r[..k] == els[..k] && r[k + 1..] == els[k + 1..];
    ProjectAround(r, k);
  }

  // ---------------------------------------------------------------------
  // deleteAnnotation

  /** An element with its highlight and identity removed; its comment
      attribute is left in place, as the source leaves it. */
  function Unmark(e: Element): (u: Element)
    ensures !Marked(u) && u.id.None? && u.timestamp.None?
    ensures u.text == e.text && u.comment == e.comment && u.isSpan == e.isSpan
  {
    e.(background := "", id := None, timestamp := None)
  }

  /** `deleteAnnotation`: only the first element carrying `id` loses its
      background colour, id and timestamp; an unknown id changes nothing. */
  function Delete(els: seq<Element>, id: string): (r: seq<Element>)
    ensures |r| == |els|
    ensures FirstWithId(els, id).None? ==> r == els
    ensures FirstWithId(els, id).Some? ==>
      var k := FirstWithId(els, id).value;
      r[k] == Unmark(els[k]) && forall j :: 0 <= j < |els| && j != k ==> r[j] == els[j]
  {
    match FirstWithId(els, id)
    case None => els
    case Some(k) => els[k := Unmark(els[k])]
  }

  /** Deleting removes exactly the entry of the first element carrying the
      id (at position `k`) from the list. */
  lemma DeleteRemovesOneEntry(els: seq<Element>, id: string, k: nat)
    requires FirstWithId(els, id) == Some(k)
    ensures Project(els) == Project(els[..k]) + Project([els[k]]) + Project(els[k + 1..])
    ensures Project(Delete(els, id)) == Project(els[..k]) + Project(els[k + 1..])
  {
    var u := Unmark(els[k]);
    assert Delete(els, id) == els[k := u];
    ProjectAround(els, k);
    ProjectAroundUpdate(els, k, u);
    ProjectOfUnmarked(u);
    AppendEmpty(Project(els[..k]));
  }

  /** The list of a document with position `k` replaced. */
  lemma ProjectAroundUpdate(els: seq<Element>, k: nat, x: Element)
    requires k < |els|
    ensures Project(els[k := x]) == Project(els[..k]) + Project([x]) + Project(els[k + 1..])
  {
    UpdateKeepsRest(els, k, x);
    ProjectAround(els[k := x], k);
  }

  lemma ProjectOfUnmarked(e: Element)
    requires !Marked(e)
    ensures Project([e]) == []
  {
    assert [e][..0] == [];
  }

  /** Deleting leaves every remaining highlighted element stamped, so the
      rescan the handler runs writes nothing. */
  lemma DeleteKeepsSynced(els: seq<Element>, id: string)
    requires Synced(els)
    ensures Synced(Delete(els, id))
  {
  }

  /** Deleting takes the id off exactly one element, so when only one element
      carried it, none does afterwards. */
  lemma DeleteRemovesOneCarrier(els: seq<Element>, id: string)
    requires FirstWithId(els, id).Some?
    ensures CountWithId(Delete(els, id), id) == CountWithId(els, id) - 1
  {
    var k := FirstWithId(els, id).value;
    var r := Delete(els, id);
    SplitAround(els, k);
    SplitAround(r, k);
    assert r[..k] == els[..k] && r[k + 1..] == els[k + 1..];
    CountWithIdAppend(els[..k] + [els[k]], els[k + 1..], id);
    CountWithIdAppend(els[..k], [els[k]], id);
    CountWithIdAppend(els[..k] + [r[k]], els[k + 1..], id);
    CountWithIdAppend(els[..k], [r[k]], id);
    assert CountWithId([els[k]], id) == 1 by {
      assert [els[k]][..0] == [];
    }
    assert CountWithId([r[k]], id) == 0 by {
      assert [r[k]][..0] == [];
    }
  }

  /** Deleting an id nobody carries changes nothing. */
  lemma DeleteUnknownIsNoOp(els: seq<Element>, id: string)
    requires CountWithId(els, id) == 0
    ensures Delete(els, id) == els
  {
    CountWithIdZero(els, id);
  }

  // ---------------------------------------------------------------------
  // clearAllAnnotations

  /** `clearAllAnnotations`: every element carrying an id attribute (even an
      empty one) loses its background colour, id and timestamp; comments and
      elements without an id are left as they are. */
  function ClearAll(els: seq<Element>): (r: seq<Element>)
    ensures |r| == |els|
    ensures forall i :: 0 <= i < |els| ==> r[i].id.None?
    ensures forall i :: 0 <= i < |els| && els[i].id.Some? ==> r[i] == Unmark(els[i])
    ensures forall i :: 0 <= i < |els| && els[i].id.None? ==> r[i] == els[i]
  {
    seq(|els|, i requires 0 <= i < |els| => if els[i].id.Some? then Unmark(els[i]) else els[i])
  }

  /** The handler shows an empty list without rescanning; on a document the
      last scan left stamped, that empty list is exactly what a rescan would
      report. */
  lemma {:induction false} ClearAllEmptiesList(els: seq<Element>)
    requires Synced(els)
    ensures Project(ClearAll(els)) == []
    ensures forall i :: 0 <= i < |els| ==> !Marked(ClearAll(els)[i])
  {
    var r := ClearAll(els);
    if els != [] {
      var n := |els| - 1;
      assert ClearAll(els)[..n] == ClearAll(els[..n]);
      ClearAllEmptiesList(els[..n]);
    }
  }
}

=== FILE: export.dfy ===
/** Saving the annotation list (`handleSave` in src/app/page.tsx) and the
    file-name check on a dropped page (`handleDrop`). */
module Export {
  import opened Options
  import opened Strings
  import opened Document

  // ---------------------------------------------------------------------
  // Ordering by document position

  /** Where an annotation sits in the page: the position of the first element
      carrying its id, as `querySelector` finds it. */
  function PositionKey(els: seq<Element>): Annotation -> Option<nat> {
    (a: Annotation) => FirstWithId(els, a.id)
  }

  /** `a` goes before `b`: both keys resolve and `a`'s is smaller. */
  predicate Before(key: Annotation -> Option<nat>, a: Annotation, b: Annotation) {
    key(a).Some? && key(b).Some? && key(a).value < key(b).value
  }

  predicate AllResolve(key: Annotation -> Option<nat>, s: seq<Annotation>) {
    forall x :: x in s ==> key(x).Some?
  }

  /** Ascending order of key among the annotations whose keys resolve. */
  predicate SortedByKey(key: Annotation -> Option<nat>, s: seq<Annotation>) {
    forall i, j :: 0 <= i < j < |s| && key(s[i]).Some? && key(s[j]).Some? ==>
      key(s[i]).value <= key(s[j]).value
  }

  /** Places `a` after the last entry of `s` that does not belong after it. */
  function Insert(key: Annotation -> Option<nat>, a: Annotation, s: seq<Annotation>): (r: seq<Annotation>)
    ensures multiset(r) == multiset(s) + multiset{a}
    decreases |s|
  {
    if s == [] then [a]
    else
      var init, last := s[..|s| - 1], s[|s| - 1];
      assert s == init + [last];
      if Before(key, a, last) then Insert(key, a, init) + [last] else s + [a]
  }

  /** Appending an entry no smaller than every entry keeps a list sorted. */
  lemma AppendKeepsSorted(key: Annotation -> Option<nat>, t: seq<Annotation>, last: Annotation)
    requires SortedByKey(key, t) && key(last).Some?
    requires forall x :: x in t && key(x).Some? ==> key(x).value <= key(last).value
    ensures SortedByKey(key, t + [last])
  {
    var r := t + [last];
    forall i, j | 0 <= i < j < |r| && key(r[i]).Some? && key(r[j]).Some?
      ensures key(r[i]).value <= key(r[j]).value
    {
      assert r[i] == t[i];
      if j < |t| {
        assert r[j] == t[j];
      } else {
        assert t[i] in t;
      }
    }
  }

  /** In a sorted list of resolving annotations, no entry before the last has
      a larger key. */
  lemma LastIsLargest(key: Annotation -> Option<nat>, s: seq<Annotation>)
    requires s != [] && AllResolve(key, s) && SortedByKey(key, s)
    ensures forall x :: x in s[..|s| - 1] ==> key(x).value <= key(s[|s| - 1]).value
  {
    forall x | x in s[..|s| - 1] ensures key(x).value <= key(s[|s| - 1]).value {
      var k :| 0 <= k < |s| - 1 && s[..|s| - 1][k] == x;
      assert s[k] == x;
    }
  }

  /** Inserting a resolving annotation into a sorted list of resolving
      annotations keeps it sorted. */
  lemma {:induction false} InsertKeepsSorted(key: Annotation -> Option<nat>, a: Annotation, s: seq<Annotation>)
    requires key(a).Some? && AllResolve(key, s) && SortedByKey(key, s)
    ensures SortedByKey(key, Insert(key, a, s))
    decreases |s|
  {
    if s != [] {
      var init, last := s[..|s| - 1], s[|s| - 1];
      if Before(key, a, last) {
        var t := Insert(key, a, init);
        assert AllResolve(key, init) && SortedByKey(key, init) by {
          assert forall x :: x in init ==> x in s;
        }
        InsertKeepsSorted(key, a, init);
        assert forall x :: x in t && key(x).Some? ==> key(x).value <= key(last).value by {
          LastIsLargest(key, s);
          forall x | x in t ensures x == a || x in init {
            assert x in multiset(t);
          }
        }
        AppendKeepsSorted(key, t, last);
      } else {
        AppendKeepsSorted(key, s, a);
      }
    }
  }

  /** The export order: an insertion sort by key. */
  function SortByKey(key: Annotation -> Option<nat>, anns: seq<Annotation>): (r: seq<Annotation>)
    ensures multiset(r) == multiset(anns)
  {
    if anns == [] then []
    else
      var init := anns[..|anns| - 1];
      assert anns == init + [anns[|anns| - 1]];
      Insert(key, anns[|anns| - 1], SortByKey(key, init))
  }

  /** When every key resolves, the sort yields ascending key order. */
  lemma {:induction false} SortByKeySorts(key: Annotation -> Option<nat>, anns: seq<Annotation>)
    requires AllResolve(key, anns)
    ensures SortedByKey(key, SortByKey(key, anns))
  {
    if anns != [] {
      var init := anns[..|anns| - 1];
      var sorted := SortByKey(key, init);
      assert forall x :: x in init ==> x in anns;
      SortByKeySorts(key, init);
      assert forall x :: x in sorted ==> x in init by {
        forall x | x in sorted ensures x in init {
          assert x in multiset(sorted);
        }
      }
      InsertKeepsSorted(key, anns[|anns| - 1], sorted);
    }
  }

  // ---------------------------------------------------------------------
  // The download name

  predicate IsNameChar(c: char) {
    c != '.' && c != '/'
  }

  /** An extension starts at `i`: a dot followed by one or more characters,
      none of them a dot or a slash, up to the end of the name. */
  predicate IsExtensionAt(s: string, i: nat) {
    i + 1 < |s| && s[i] == '.' && forall j :: i < j < |s| ==> IsNameChar(s[j])
  }

  /** The start of the longest suffix free of dots and slashes. */
  function TailStart(s: string): (t: nat)
    ensures t <= |s|
    ensures forall j :: t <= j < |s| ==> IsNameChar(s[j])
    ensures t > 0 ==> !IsNameChar(s[t - 1])
  {
    if s == [] || !IsNameChar(s[|s| - 1]) then |s|
    else TailStart(s[..|s| - 1])
  }

  /** Where the final extension starts, if the name has one. */
  function ExtensionStart(s: string): (r: Option<nat>)
    ensures r.Some? ==> IsExtensionAt(s, r.value)
    ensures r.None? ==> forall i: nat :: !IsExtensionAt(s, i)
  {
    var t := TailStart(s);
    if 0 < t < |s| && s[t - 1] == '.' then Some(t - 1)
    else None
  }

  /** A name has at most one extension position. */
  lemma ExtensionAtIsUnique(s: string, i: nat, j: nat)
    requires IsExtensionAt(s, i) && IsExtensionAt(s, j)
    ensures i == j
  {
  }

  /** `name.replace(/\.[^/.]+$/, "")`: the result is a prefix of the name,
      shorter exactly when the name has an extension, and then cut just
      before it. */
  function StripExtension(s: string): (r: string)
    ensures |r| <= |s| && r == s[..|r|]
    ensures |r| < |s| <==> exists i: nat :: IsExtensionAt(s, i)
    ensures |r| < |s| ==> IsExtensionAt(s, |r|)
  {
    match ExtensionStart(s)
    case None => s
    case Some(i) => s[..i]
  }

  /** Stripping removes exactly a final extension and leaves other names as
      they are. */
  lemma StripExtensionRemovesExtension(base: string, ext: string)
    requires ext != [] && forall j :: 0 <= j < |ext| ==> IsNameChar(ext[j])
    ensures StripExtension(base + "." + ext) == base
  {
    var s := base + "." + ext;
    assert IsExtensionAt(s, |base|) by {
      forall j | |base| < j < |s| ensures IsNameChar(s[j]) {
        assert s[j] == ext[j - |base| - 1];
      }
    }
    var i := ExtensionStart(s).value;
    ExtensionAtIsUnique(s, i, |base|);
    assert s[..|base|] == base;
  }

  lemma StripExtensionWithoutExtension(s: string)
    requires forall i: nat :: !IsExtensionAt(s, i)
    ensures StripExtension(s) == s
  {
  }

  const DefaultExportName: string := "annotations.json"
  const ExportSuffix: string := "-annotations.json"

  /** The download name: a fixed name when no page has a name, otherwise the
      page's name without its extension followed by "-annotations.json". */
  function ExportName(fileName: Option<string>): (r: string)
    ensures fileName.None? || fileName.value == [] ==> r == DefaultExportName
    ensures fileName.Some? && fileName.value != [] ==>
      EndsWith(r, ExportSuffix) &&
      r[..|r| - |ExportSuffix|] == StripExtension(fileName.value)
  {
    if fileName.None? || fileName.value == [] then DefaultExportName
    else
      var r := StripExtension(fileName.value) + ExportSuffix;
      assert r[..|r| - |ExportSuffix|] == StripExtension(fileName.value);
      r
  }

  // ---------------------------------------------------------------------
  // The saved file

  /** The JSON object written to the download. */
  datatype ExportFile = ExportFile(sourceFile: Option<string>, exportedAt: string, annotations: seq<Annotation>)

  /** `handleSave`: the current list, put into document order when the page
      is loaded, together with the page's name and the clock's reading. */
  function Save(page: Option<seq<Element>>, anns: seq<Annotation>, fileName: Option<string>, now: string): (r: (ExportFile, string))
    ensures r.0.sourceFile == fileName && r.0.exportedAt == now
    ensures multiset(r.0.annotations) == multiset(anns)
    ensures page.None? ==> r.0.annotations == anns
    ensures page.Some? ==> r.0.annotations == SortByKey(PositionKey(page.value), anns)
    ensures r.1 == ExportName(fileName)
  {
    var sorted := match page
      case None => anns
      case Some(els) => SortByKey(PositionKey(els), anns);
    (ExportFile(fileName, now, sorted), ExportName(fileName))
  }

  /** When every annotation's id is carried by some element of the page, the
      saved list is in ascending document order of the first such elements. */
  lemma SavedInDocumentOrder(els: seq<Element>, anns: seq<Annotation>, fileName: Option<string>, now: string)
    requires AllResolve(PositionKey(els), anns)
    ensures SortedByKey(PositionKey(els), Save(Some(els), anns, fileName, now).0.annotations)
  {
    SortByKeySorts(PositionKey(els), anns);
  }

  // ---------------------------------------------------------------------
  // Dropping a page

  /** The drop target accepts names ending in ".htm" or ".html" (case
      matters). */
  predicate IsPageName(name: string) {
    EndsWith(name, ".htm") || EndsWith(name, ".html")
  }

  datatype DropOutcome = Load(name: string) | Rejected

  /** `handleDrop`: the first dropped file is loaded when its name is a page
      name; anything else, including a drop without files, is rejected. */
  function HandleDrop(names: seq<string>): (r: DropOutcome)
    ensures r.Load? <==> names != [] && IsPageName(names[0])
    ensures r.Load? ==> r.name == names[0]
  {
    if names != [] && IsPageName(names[0]) then Load(names[0]) else Rejected
  }

  /** Stripping a name that ends in a known extension cuts exactly that
      extension. */
  lemma StripKnownExtension(n: string, ext: string)
    requires ext != [] && forall j :: 0 <= j < |ext| ==> IsNameChar(ext[j])
    requires EndsWith(n, "." + ext)
    ensures StripExtension(n) == n[..|n| - |ext| - 1]
  {
    var base := n[..|n| - |ext| - 1];
    assert n == base + "." + ext by {
      assert n[|n| - |ext| - 1..] == "." + ext;
    }
    StripExtensionRemovesExtension(base, ext);
  }

  /** A page accepted by a drop exports under its name without ".htm" or
      ".html". */
  lemma DroppedPageExportName(names: seq<string>)
    requires HandleDrop(names).Load?
    ensures var n := names[0];
      ExportName(Some(n)) ==
        (if EndsWith(n, ".html") then n[..|n| - 5] else n[..|n| - 4]) + ExportSuffix
  {
    var n := names[0];
    assert n != [];
    if EndsWith(n, ".html") {
      assert StripExtension(n) == n[..|n| - 5] by {
        assert "." + "html" == ".html";
        StripKnownExtension(n, "html");
      }
    } else {
      assert StripExtension(n) == n[..|n| - 4] by {
        assert "." + "htm" == ".htm";
        StripKnownExtension(n, "htm");
      }
    }
  }

  /** The check is case-sensitive: an upper-case extension is refused. */
  lemma UpperCaseExtensionRejected()
    ensures HandleDrop(["PAGE.HTML"]) == Rejected
  {
    assert "PAGE.HTML"[5..] != ".html";
    assert "PAGE.HTML"[4..] != ".html";
    assert "PAGE.HTML"[5..] != ".htm";
  }
}

=== FILE: normalise.dfy ===
/** The whitespace normaliser of the import loop (src/app/page.tsx:302):
    `text.replace(/[\r\n\t]+/g, ' ').replace(/\s\s+/g, ' ').trim()`.

    JavaScript's `\s` and `trim` also cover non-ASCII spaces (no-break space,
    line separator, …); here white space is the six ASCII characters space,
    tab, line feed, vertical tab, form feed and carriage return. */
module Whitespace {
  import opened Sequences

  /** A character of the class `[\r\n\t]`. */
  predicate IsBreak(c: char) {
    c == '\r' || c == '\n' || c == '\t'
  }

  /** A character of the class `\s`, restricted to ASCII. */
  predicate IsSpace(c: char) {
    c == ' ' || '\t' <= c <= '\r'
  }

  predicate NoBreaks(s: string) {
    forall i :: 0 <= i < |s| ==> !IsBreak(s[i])
  }

  predicate NoAdjacentSpaces(s: string) {
    forall i :: 0 <= i < |s| - 1 ==> !IsSpace(s[i]) || !IsSpace(s[i + 1])
  }

  predicate Trimmed(s: string) {
    s != [] ==> !IsSpace(s[0]) && !IsSpace(s[|s| - 1])
  }

  /** The shape every normalised text has. */
  predicate IsNormal(s: string) {
    NoBreaks(s) && NoAdjacentSpaces(s) && Trimmed(s)
  }

  function BreakRunLength(s: string): (k: nat)
    ensures k <= |s|
    ensures k < |s| ==> !IsBreak(s[k])
    ensures s != [] && IsBreak(s[0]) ==> k >= 1
    ensures forall i :: 0 <= i < k ==> IsBreak(s[i])
  {
    if s == [] || !IsBreak(s[0]) then 0 else 1 + BreakRunLength(s[1..])
  }

  function SpaceRunLength(s: string): (k: nat)
    ensures k <= |s|
    ensures k < |s| ==> !IsSpace(s[k])
    ensures s != [] && IsSpace(s[0]) ==> k >= 1
    ensures forall i :: 0 <= i < k ==> IsSpace(s[i])
  {
    if s == [] || !IsSpace(s[0]) then 0 else 1 + SpaceRunLength(s[1..])
  }

  /** `replace(/[\r\n\t]+/g, ' ')`: every maximal run of carriage returns,
      line feeds and tabs becomes one space. */
  function ReplaceBreaks(s: string): (r: string)
    ensures NoBreaks(r)
    ensures |r| <= |s| && (s != [] ==> r != [])
    decreases |s|
  {
    if s == [] then []
    else if IsBreak(s[0]) then " " + ReplaceBreaks(s[BreakRunLength(s)..])
    else [s[0]] + ReplaceBreaks(s[1..])
  }

  /** `replace(/\s\s+/g, ' ')`: every maximal run of two or more white-space
      characters becomes one space; a lone white-space character stays. */
  function CollapseSpaces(s: string): (r: string)
    ensures |s| > 0 ==> |r| > 0 && (IsSpace(r[0]) <==> IsSpace(s[0]))
    ensures NoBreaks(s) ==> NoBreaks(r)
    ensures NoAdjacentSpaces(r)
    decreases |s|
  {
    if s == [] then []
    else if SpaceRunLength(s) >= 2 then " " + CollapseSpaces(s[SpaceRunLength(s)..])
    else [s[0]] + CollapseSpaces(s[1..])
  }

  /** Leading white space removed. */
  function TrimStart(s: string): (r: string)
    ensures |r| <= |s| && r == s[|s| - |r|..]
    ensures r != [] ==> !IsSpace(r[0])
    ensures forall i :: 0 <= i < |s| - |r| ==> IsSpace(s[i])
  {
    if s != [] && IsSpace(s[0]) then TrimStart(s[1..]) else s
  }

  /** Trailing white space removed. */
  function TrimEnd(s: string): (r: string)
    ensures |r| <= |s| && r == s[..|r|]
    ensures r != [] ==> !IsSpace(r[|r| - 1])
    ensures forall i :: |r| <= i < |s| ==> IsSpace(s[i])
  {
    if s != [] && IsSpace(s[|s| - 1]) then TrimEnd(s[..|s| - 1]) else s
  }

  /** `trim()`: the text between the leading and the trailing white space. */
  function Trim(s: string): (r: string)
    ensures Trimmed(r)
    ensures NoBreaks(s) ==> NoBreaks(r)
    ensures NoAdjacentSpaces(s) ==> NoAdjacentSpaces(r)
  {
    TrimKeepsShape(s);
    TrimEnd(TrimStart(s))
  }

  /** Trimming cuts a piece out of the text. */
  lemma TrimKeepsShape(s: string)
    ensures NoBreaks(s) ==> NoBreaks(TrimEnd(TrimStart(s)))
    ensures NoAdjacentSpaces(s) ==> NoAdjacentSpaces(TrimEnd(TrimStart(s)))
  {
    var t := TrimStart(s);
    var r := TrimEnd(t);
    var lo := |s| - |t|;
    assert forall i :: 0 <= i < |r| ==> r[i] == s[lo + i] by {
      assert t == s[lo..] && r == t[..|r|];
    }
    PieceKeepsShape(s, r, lo);
  }

  /** A piece of a text has no breaks and no adjacent white space when the
      whole text has none. */
  lemma PieceKeepsShape(s: string, r: string, lo: nat)
    requires lo + |r| <= |s| && forall i :: 0 <= i < |r| ==> r[i] == s[lo + i]
    ensures NoBreaks(s) ==> NoBreaks(r)
    ensures NoAdjacentSpaces(s) ==> NoAdjacentSpaces(r)
  {
  }

  /** The normaliser: breaks to spaces, white-space runs collapsed, trimmed.
      Its result has no carriage return, line feed or tab, no two adjacent
      white-space characters and no leading or trailing white space. */
  function Normalise(text: string): (r: string)
    ensures IsNormal(r)
  {
    Trim(CollapseSpaces(ReplaceBreaks(text)))
  }

  lemma {:induction false} ReplaceBreaksFixes(s: string)
    requires NoBreaks(s)
    ensures ReplaceBreaks(s) == s
  {
    if s != [] {
      ReplaceBreaksFixes(s[1..]);
    }
  }

  lemma {:induction false} CollapseSpacesFixes(s: string)
    requires NoAdjacentSpaces(s)
    ensures CollapseSpaces(s) == s
  {
    if s != [] {
      var tail := s[1..];
      assert NoAdjacentSpaces(tail) by {
        forall i | 0 <= i < |tail| - 1 ensures !IsSpace(tail[i]) || !IsSpace(tail[i + 1]) {
          assert tail[i] == s[i + 1] && tail[i + 1] == s[i + 2];
        }
      }
      assert SpaceRunLength(s) < 2;
      CollapseSpacesFixes(tail);
      assert CollapseSpaces(s) == [s[0]] + CollapseSpaces(tail);
      assert [s[0]] + tail == s;
    }
  }

  lemma TrimFixes(s: string)
    requires Trimmed(s)
    ensures Trim(s) == s
  {
  }

  /** A text is left unchanged by normalisation exactly when it already has
      the normal shape. */
  lemma NormaliseFixesExactlyNormal(s: string)
    ensures Normalise(s) == s <==> IsNormal(s)
  {
    if IsNormal(s) {
      ReplaceBreaksFixes(s);
      CollapseSpacesFixes(s);
      TrimFixes(s);
    }
  }

  /** Normalising twice is normalising once. */
  lemma NormaliseIdempotent(s: string)
    ensures Normalise(Normalise(s)) == Normalise(s)
  {
    NormaliseFixesExactlyNormal(Normalise(s));
  }

  // ---------------------------------------------------------------------
  // What each step does to the content of a text

  predicate AllSpace(s: string) {
    forall i :: 0 <= i < |s| ==> IsSpace(s[i])
  }

  /** The text with every white-space character dropped: the words a
      normaliser must keep, in order. */
  function Squeeze(s: string): (r: string)
    ensures forall i :: 0 <= i < |r| ==> !IsSpace(r[i])
  {
    if s == [] then [] else (if IsSpace(s[0]) then [] else [s[0]]) + Squeeze(s[1..])
  }

  lemma SqueezeCons(c: char, s: string)
    ensures Squeeze([c] + s) == (if IsSpace(c) then [] else [c]) + Squeeze(s)
  {
    assert ([c] + s)[1..] == s;
  }

  lemma {:induction false} SqueezeAppend(a: string, b: string)
    ensures Squeeze(a + b) == Squeeze(a) + Squeeze(b)
  {
    if a == [] {
      assert a + b == b;
    } else {
      assert (a + b)[1..] == a[1..] + b;
      SqueezeAppend(a[1..], b);
      AppendAssoc(if IsSpace(a[0]) then [] else [a[0]], Squeeze(a[1..]), Squeeze(b));
    }
  }

  lemma {:induction false} SqueezeAllSpace(s: string)
    requires AllSpace(s)
    ensures Squeeze(s) == []
  {
    if s != [] {
      SqueezeAllSpace(s[1..]);
    }
  }

  /** Squeezing a text split at `k` squeezes the two parts; the first part
      contributes nothing when it is all white space. */
  lemma SqueezeDropRun(s: string, k: nat)
    requires k <= |s| && AllSpace(s[..k])
    ensures Squeeze(s) == Squeeze(s[k..])
  {
    assert s == s[..k] + s[k..];
    SqueezeAppend(s[..k], s[k..]);
    SqueezeAllSpace(s[..k]);
  }

  /** Two texts whose junction is not inside a run of breaks. */
  predicate BreakBoundary(p: string, q: string) {
    p == [] || q == [] || !IsBreak(p[|p| - 1]) || !IsBreak(q[0])
  }

  /** Two texts whose junction is not inside a run of white space. */
  predicate SpaceBoundary(p: string, q: string) {
    p == [] || q == [] || !IsSpace(p[|p| - 1]) || !IsSpace(q[0])
  }

  lemma {:induction false} BreakRunAppend(p: string, q: string)
    ensures BreakRunLength(p + q) ==
      if BreakRunLength(p) < |p| then BreakRunLength(p) else |p| + BreakRunLength(q)
  {
    if p == [] {
      assert p + q == q;
    } else if IsBreak(p[0]) {
      DropFromAppend(p, q, 1);
      BreakRunAppend(p[1..], q);
    }
  }

  lemma {:induction false} SpaceRunAppend(p: string, q: string)
    ensures SpaceRunLength(p + q) ==
      if SpaceRunLength(p) < |p| then SpaceRunLength(p) else |p| + SpaceRunLength(q)
  {
    if p == [] {
      assert p + q == q;
    } else if IsSpace(p[0]) {
      DropFromAppend(p, q, 1);
      SpaceRunAppend(p[1..], q);
    }
  }

  /** Replacing breaks works piece by piece on texts joined outside a run of
      breaks; with `ReplaceBreaksFixes` and `ReplaceBreaksOfRun` this says that
      every maximal run of breaks becomes exactly one space and every other
      character is kept in place. */
  lemma {:induction false} ReplaceBreaksAppend(p: string, q: string)
    requires BreakBoundary(p, q)
    ensures ReplaceBreaks(p + q) == ReplaceBreaks(p) + ReplaceBreaks(q)
    decreases |p|
  {
    if p == [] {
      assert p + q == q;
    } else {
      var k := BreakRunLength(p);
      BreakRunAppend(p, q);
      assert BreakRunLength(p + q) == k;
      if IsBreak(p[0]) {
        DropFromAppend(p, q, k);
        ReplaceBreaksAppend(p[k..], q);
        AppendAssoc(" ", ReplaceBreaks(p[k..]), ReplaceBreaks(q));
      } else {
        DropFromAppend(p, q, 1);
        ReplaceBreaksAppend(p[1..], q);
        AppendAssoc([p[0]], ReplaceBreaks(p[1..]), ReplaceBreaks(q));
      }
    }
  }

  /** A whole run of breaks becomes one space. */
  lemma ReplaceBreaksOfRun(b: string)
    requires b != [] && forall i :: 0 <= i < |b| ==> IsBreak(b[i])
    ensures ReplaceBreaks(b) == " "
  {
    assert BreakRunLength(b) == |b|;
    assert b[|b|..] == [];
  }

  /** Replacing breaks drops no word character. */
  lemma {:induction false} ReplaceBreaksKeepsWords(s: string)
    ensures Squeeze(ReplaceBreaks(s)) == Squeeze(s)
    decreases |s|
  {
    if s != [] {
      if IsBreak(s[0]) {
        var k := BreakRunLength(s);
        ReplaceBreaksKeepsWords(s[k..]);
        SqueezeCons(' ', ReplaceBreaks(s[k..]));
        SqueezeDropRun(s, k);
      } else {
        ReplaceBreaksKeepsWords(s[1..]);
        SqueezeCons(s[0], ReplaceBreaks(s[1..]));
        SqueezeCons(s[0], s[1..]);
        assert [s[0]] + s[1..] == s;
      }
    }
  }

  /** Collapsing works piece by piece on texts joined outside a run of white
      space; with `CollapseSpacesFixes` and `CollapseSpacesOfRun` this says
      that every maximal run of two or more white-space characters becomes
      one space and every other character is kept in place. */
  lemma {:induction false} CollapseSpacesAppend(p: string, q: string)
    requires SpaceBoundary(p, q)
    ensures CollapseSpaces(p + q) == CollapseSpaces(p) + CollapseSpaces(q)
    decreases |p|
  {
    if p == [] {
      assert p + q == q;
    } else {
      var k := SpaceRunLength(p);
      SpaceRunAppend(p, q);
      assert SpaceRunLength(p + q) == k;
      if k >= 2 {
        DropFromAppend(p, q, k);
        CollapseSpacesAppend(p[k..], q);
        AppendAssoc(" ", CollapseSpaces(p[k..]), CollapseSpaces(q));
      } else {
        DropFromAppend(p, q, 1);
        CollapseSpacesAppend(p[1..], q);
        AppendAssoc([p[0]], CollapseSpaces(p[1..]), CollapseSpaces(q));
      }
    }
  }

  /** A whole run of white space becomes one space, unless it is a single
      character, which stays. */
  lemma CollapseSpacesOfRun(w: string)
    requires w != [] && AllSpace(w)
    ensures CollapseSpaces(w) == if |w| == 1 then w else " "
  {
    assert SpaceRunLength(w) == |w|;
    assert w[|w|..] == [];
    assert w[1..] == [] ==> [w[0]] == w;
  }

  /** Collapsing drops no word character. */
  lemma {:induction false} CollapseSpacesKeepsWords(s: string)
    ensures Squeeze(CollapseSpaces(s)) == Squeeze(s)
    decreases |s|
  {
    if s != [] {
      var k := SpaceRunLength(s);
      if k >= 2 {
        CollapseSpacesKeepsWords(s[k..]);
        SqueezeCons(' ', CollapseSpaces(s[k..]));
        assert AllSpace(s[..k]);
        SqueezeDropRun(s, k);
      } else {
        CollapseSpacesKeepsWords(s[1..]);
        SqueezeCons(s[0], CollapseSpaces(s[1..]));
        SqueezeCons(s[0], s[1..]);
        assert [s[0]] + s[1..] == s;
      }
    }
  }

  lemma {:induction false} TrimStartPadded(a: string, t: string)
    requires AllSpace(a) && (t == [] || !IsSpace(t[0]))
    ensures TrimStart(a + t) == t
  {
    if a == [] {
      assert a + t == t;
    } else {
      assert (a + t)[1..] == a[1..] + t;
      TrimStartPadded(a[1..], t);
    }
  }

  lemma {:induction false} TrimEndPadded(t: string, b: string)
    requires AllSpace(b) && (t == [] || !IsSpace(t[|t| - 1]))
    ensures TrimEnd(t + b) == t
  {
    if b == [] {
      assert t + b == t;
    } else {
      var n := |t + b|;
      assert (t + b)[..n - 1] == t + b[..|b| - 1];
      TrimEndPadded(t, b[..|b| - 1]);
    }
  }

  /** Trimming removes exactly the white space around the text and nothing
      inside it. */
  lemma TrimOfPadded(a: string, m: string, b: string)
    requires AllSpace(a) && AllSpace(b) && Trimmed(m)
    ensures Trim(a + m + b) == m
  {
    if m == [] {
      assert a + m + b == (a + b) + [];
      TrimStartPadded(a + b, []);
    } else {
      assert a + m + b == a + (m + b);
      TrimStartPadded(a, m + b);
      TrimEndPadded(m, b);
    }
  }

  lemma SqueezeDropTail(s: string, k: nat)
    requires k <= |s| && AllSpace(s[k..])
    ensures Squeeze(s) == Squeeze(s[..k])
  {
    assert s == s[..k] + s[k..];
    SqueezeAppend(s[..k], s[k..]);
    SqueezeAllSpace(s[k..]);
    AppendEmpty(Squeeze(s[..k]));
  }

  /** Trimming drops no word character. */
  lemma TrimKeepsWords(s: string)
    ensures Squeeze(Trim(s)) == Squeeze(s)
  {
    var t := TrimStart(s);
    var lo := |s| - |t|;
    assert Squeeze(s) == Squeeze(t) by {
      assert s[lo..] == t;
      assert AllSpace(s[..lo]);
      SqueezeDropRun(s, lo);
    }
    var r := TrimEnd(t);
    assert Squeeze(t) == Squeeze(r) by {
      assert t[..|r|] == r;
      assert AllSpace(t[|r|..]);
      SqueezeDropTail(t, |r|);
    }
  }

  /** Normalising keeps every non-white-space character, in order. */
  lemma NormaliseKeepsWords(s: string)
    ensures Squeeze(Normalise(s)) == Squeeze(s)
  {
    ReplaceBreaksKeepsWords(s);
    CollapseSpacesKeepsWords(ReplaceBreaks(s));
    TrimKeepsWords(CollapseSpaces(ReplaceBreaks(s)));
  }

  lemma {:induction false} ReplaceBreaksKeepsSpaces(w: string)
    requires AllSpace(w)
    ensures AllSpace(ReplaceBreaks(w))
    decreases |w|
  {
    if w != [] {
      if IsBreak(w[0]) {
        ReplaceBreaksKeepsSpaces(w[BreakRunLength(w)..]);
      } else {
        ReplaceBreaksKeepsSpaces(w[1..]);
      }
    }
  }

  /** A run of white space becomes one space after the first two steps,
      unless it is a single character other than a break, which stays. */
  lemma SpaceRunNormalised(w: string)
    requires w != [] && AllSpace(w)
    ensures CollapseSpaces(ReplaceBreaks(w)) == if |w| == 1 && !IsBreak(w[0]) then w else " "
  {
    var v := ReplaceBreaks(w);
    ReplaceBreaksKeepsSpaces(w);
    CollapseSpacesOfRun(v);
    if |w| == 1 && !IsBreak(w[0]) {
      ReplaceBreaksFixes(w);
    } else if !IsBreak(w[0]) {
      assert |ReplaceBreaks(w[1..])| >= 1;
    }
  }

  /** Two normal texts joined by any run of white space normalise to the two
      texts joined by one space (or by the single non-break character that
      formed the run). */
  lemma NormaliseJoinsWords(p: string, w: string, q: string)
    requires IsNormal(p) && IsNormal(q) && p != [] && q != []
    requires w != [] && AllSpace(w)
    ensures Normalise(p + w + q) == p + (if |w| == 1 && !IsBreak(w[0]) then w else " ") + q
  {
    var c := if |w| == 1 && !IsBreak(w[0]) then w else " ";
    var v := ReplaceBreaks(w);
    assert ReplaceBreaks(p + w + q) == p + v + q by {
      assert p + w + q == p + (w + q);
      ReplaceBreaksAppend(w, q);
      ReplaceBreaksAppend(p, w + q);
      ReplaceBreaksFixes(p);
      ReplaceBreaksFixes(q);
      AppendAssoc(p, v, q);
    }
    assert CollapseSpaces(p + v + q) == p + c + q by {
      ReplaceBreaksKeepsSpaces(w);
      SpaceRunNormalised(w);
      assert p + v + q == p + (v + q);
      CollapseSpacesAppend(v, q);
      CollapseSpacesAppend(p, v + q);
      CollapseSpacesFixes(p);
      CollapseSpacesFixes(q);
      AppendAssoc(p, c, q);
    }
    TrimFixes(p + c + q);
  }

  /** Blank lines between words collapse to one space. */
  lemma NormaliseBlankLines()
    ensures Normalise("a\n\nb") == "a b"
  {
    var s := "a\n\nb";
    assert BreakRunLength("\n\nb") == 2 by {
      assert "\n\nb"[1..] == "\nb";
      assert "\nb"[1..] == "b";
    }
    assert s[1..] == "\n\nb";
    assert "\n\nb"[2..] == "b";
    assert ReplaceBreaks(s) == "a b";
    assert SpaceRunLength(" b") == 1 by {
      assert " b"[1..] == "b";
    }
    assert "a b"[1..] == " b";
    assert " b"[1..] == "b";
    assert CollapseSpaces("a b") == "a b";
  }
}

=== FILE: options.dfy ===
/** The optional-value wrapper used throughout the model: a DOM attribute that
    may be absent, a search that may miss, a record that may lack a comment. */
module Options {

  datatype Option<+T> = None | Some(value: T) {

    /** The wrapped value, or `default` when there is none. */
    function GetOr(default: T): T {
      match this
      case Some(v) => v
      case None => default
    }
  }
}

=== FILE: reanchor.dfy ===
/** Re-anchoring an imported annotation list onto the live page: the loop of
    `handleImportFile` in src/app/page.tsx.

    The browser primitives the loop drives are parameters:
    - the search `window.find` is `Strings.Find` over the page's rendered
      text `body`;
    - the paint `execCommand("backColor", false, colour)` is an oracle
      `paint` that says which elements the paint reached (`covered`) and
      which elements lie under the selection's common ancestor (`scope`);
      the model gives exactly the covered elements the colour;
    - `Math.random()` is an oracle `draw` giving the drawn temporary colour
      number for each record. */
module Reanchor {
  import opened Options
  import opened Strings
  import opened Colour
  import opened Whitespace
  import opened Document

  /** One entry of the import file's `annotations` array. */
  datatype ImportRecord = ImportRecord(
    id: string,
    text: string,
    color: string,
    timestamp: string,
    comment: Option<string>)

  /** The search strategy that produced a match. */
  datatype Tier = Exact | Normalised | Truncated

  /** A match of an annotation's text in the page text, `[start, end)`. */
  datatype Match = Match(start: nat, end: nat, tier: Tier)

  /** Texts saved by the older extraction ended in this marker. */
  const Ellipsis: string := "..."

  /** The truncated tier needs more than this many UTF-16 code units before
      the marker. */
  const MinPrefixLength: nat := 15

  /** The truncated tier is tried only for a text ending in "..." whose
      remaining prefix is longer than 15 UTF-16 code units, as JavaScript
      measures `prefix.length`. */
  predicate TruncatedTierApplies(text: string) {
    EndsWith(text, Ellipsis) && Utf16Length(Prefix(text)) > MinPrefixLength
  }

  /** For a text made only of characters of the Basic Multilingual Plane the
      gate counts characters; each character outside that plane counts twice,
      so ten emoji before "..." already pass it. */
  lemma TruncatedGateCountsCodeUnits(text: string)
    requires EndsWith(text, Ellipsis)
    ensures |Prefix(text)| == |text| - 3
    ensures (forall i :: 0 <= i < |text| ==> text[i] as int < 0x1_0000) ==>
      (TruncatedTierApplies(text) <==> |text| - 3 > MinPrefixLength)
    ensures (forall i :: 0 <= i < |text| - 3 ==> text[i] as int >= 0x1_0000) ==>
      (TruncatedTierApplies(text) <==> 2 * (|text| - 3) > MinPrefixLength)
  {
  }

  /** Ten emoji followed by "..." are twenty code units before the marker:
      the truncated tier is tried although only ten characters precede it. */
  lemma TenEmojiPassGate()
    ensures var text := seq(10, _ => '\U{1F600}') + Ellipsis;
      |Prefix(text)| == 10 && TruncatedTierApplies(text)
  {
  }

  /** The text with its final "..." cut off. */
  function Prefix(text: string): string {
    if |text| >= |Ellipsis| then text[..|text| - |Ellipsis|] else text
  }

  /** What each tier searches for. */
  function Query(text: string, tier: Tier): string {
    match tier
    case Exact => text
    case Normalised => Normalise(text)
    case Truncated => Prefix(text)
  }

  /** One search: the first case-insensitive occurrence of the tier's query
      at or after the cursor. */
  function Search(body: string, cursor: nat, text: string, tier: Tier): (m: Option<Match>)
    ensures m.None? <==> Find(body, Query(text, tier), cursor).None?
    ensures m.Some? ==> m.value.tier == tier && m.value.start == Find(body, Query(text, tier), cursor).value
    ensures m.Some? ==> cursor <= m.value.start < m.value.end <= |body|
    ensures m.Some? ==> m.value.end - m.value.start == |Query(text, tier)|
    ensures m.Some? ==> OccursAtIgnoringCase(body, Query(text, tier), m.value.start)
    ensures m.Some? ==> forall p: nat :: cursor <= p < m.value.start ==>
      !OccursAtIgnoringCase(body, Query(text, tier), p)
  {
    var query := Query(text, tier);
    match Find(body, query, cursor)
    case None => None
    case Some(p) => Some(Match(p, p + |query|, tier))
  }

  /** The three-tier search, first hit wins: the text as stored; then, only
      when normalising changes it, the normalised text; then, only for a
      long enough text ending in "...", the text without the marker. Every
      search starts at the cursor and runs forward without wrapping. */
  function Locate(body: string, cursor: nat, text: string): (m: Option<Match>)
    ensures m.Some? ==> m == Search(body, cursor, text, m.value.tier)
    ensures m.Some? && m.value.tier == Exact <==> Find(body, text, cursor).Some?
    ensures m.Some? && m.value.tier == Normalised ==>
      Find(body, text, cursor).None? && Normalise(text) != text
    ensures m.Some? && m.value.tier == Truncated ==>
      Find(body, text, cursor).None? &&
      (Normalise(text) == text || Find(body, Normalise(text), cursor).None?) &&
      TruncatedTierApplies(text)
    ensures m.None? <==>
      Find(body, text, cursor).None? &&
      (Normalise(text) == text || Find(body, Normalise(text), cursor).None?) &&
      (!TruncatedTierApplies(text) || Find(body, Prefix(text), cursor).None?)
  {
    var exact := Search(body, cursor, text, Exact);
    var normalised := Search(body, cursor, text, Normalised);
    var truncated := Search(body, cursor, text, Truncated);
    if exact.Some? then exact
    else if Normalise(text) != text && normalised.Some? then normalised
    else if TruncatedTierApplies(text) && truncated.Some? then truncated
    else None
  }

  /** Whatever tier hits, the match lies after the cursor inside the body,
      spans exactly the tier's query and is its first occurrence there. */
  lemma LocateFindsFirstOccurrence(body: string, cursor: nat, text: string)
    requires Locate(body, cursor, text).Some?
    ensures var m := Locate(body, cursor, text).value;
      cursor <= m.start < m.end <= |body| &&
      m.end - m.start == |Query(text, m.tier)| &&
      OccursAtIgnoringCase(body, Query(text, m.tier), m.start) &&
      forall p: nat :: cursor <= p < m.start ==> !OccursAtIgnoringCase(body, Query(text, m.tier), p)
  {
  }

  /** Text saved with a blank line between two words is found in a page
      that renders them with a single space, by the normalised tier. */
  lemma LocateNormalisedExample()
    ensures Locate("a b", 0, "a\n\nb") == Some(Match(0, 3, Normalised))
  {
    ExampleExactMisses();
    ExampleNormalisedHits();
    NormaliseBlankLines();
  }

  /** The saved text, with its line breaks, does not occur in "a b". */
  lemma ExampleExactMisses()
    ensures Find("a b", "a\n\nb", 0).None?
  {
  }

  lemma ExampleNormalisedHits()
    ensures Find("a b", "a b", 0) == Some(0)
  {
    assert OccursAtIgnoringCase("a b", "a b", 0);
  }

  // ---------------------------------------------------------------------
  // Painting with the temporary colour and claiming the painted spans

  /** What one `execCommand("backColor", …)` reached: the elements that now
      carry the colour, and the elements under the selection's common
      ancestor that the loop goes on to inspect. */
  datatype PaintTarget = PaintTarget(covered: set<nat>, scope: set<nat>)

  /** The covered elements now carry `colour`, as the browser reports it;
      nothing else changes. */
  function Paint(els: seq<Element>, covered: set<nat>, colour: string): (r: seq<Element>)
    ensures |r| == |els|
    ensures forall i :: 0 <= i < |els| && i in covered ==> r[i] == els[i].(background := CssSerialize(colour))
    ensures forall i :: 0 <= i < |els| && i !in covered ==> r[i] == els[i]
  {
    seq(|els|, i requires 0 <= i < |els| =>
      if i in covered then els[i].(background := CssSerialize(colour)) else els[i])
  }

  /** A span in scope whose colour converts back to the temporary colour is
      the one the loop attributes to the record being imported. */
  predicate Claimed(els: seq<Element>, scope: set<nat>, temp: string, i: nat)
    requires i < |els|
  {
    i in scope && els[i].isSpan && RgbToHex(els[i].background) == temp
  }

  /** `processSpan` applied to every span in scope: a claimed span takes the
      record's id and timestamp, its comment when the record has a non-empty
      one, and the record's colour in place of the temporary one. */
  function ClaimSpans(els: seq<Element>, scope: set<nat>, temp: string, rec: ImportRecord): (r: seq<Element>)
    ensures |r| == |els|
    ensures forall i :: 0 <= i < |els| && Claimed(els, scope, temp, i) ==>
      r[i].id == Some(rec.id) && r[i].timestamp == Some(rec.timestamp) &&
      r[i].background == CssSerialize(rec.color) &&
      r[i].comment == (if Present(rec.comment) then rec.comment else els[i].comment) &&
      r[i].text == els[i].text && r[i].isSpan
    ensures forall i :: 0 <= i < |els| && !Claimed(els, scope, temp, i) ==> r[i] == els[i]
  {
    seq(|els|, i requires 0 <= i < |els| =>
      if Claimed(els, scope, temp, i) then
        els[i].(id := Some(rec.id), timestamp := Some(rec.timestamp),
                comment := if Present(rec.comment) then rec.comment else els[i].comment,
                background := CssSerialize(rec.color))
      else els[i])
  }

  /** Every span the paint reached inside the scope is claimed: the temporary
      colour survives the browser's `rgb(…)` serialisation and `rgbToHex`. */
  lemma PaintedSpansAreClaimed(els: seq<Element>, target: PaintTarget, n: ColourIndex, i: nat)
    requires i < |els| && i in target.covered && i in target.scope && els[i].isSpan
    ensures Claimed(Paint(els, target.covered, TempColour(n)), target.scope, TempColour(n), i)
  {
    TempColourRoundTrip(n);
  }

  /** When no span in scope already carried the temporary colour, the claimed
      spans are exactly the spans the paint reached inside the scope. */
  lemma ClaimedAreExactlyPainted(els: seq<Element>, target: PaintTarget, n: ColourIndex)
    requires forall i :: 0 <= i < |els| && i in target.scope && els[i].isSpan ==>
      RgbToHex(els[i].background) != TempColour(n)
    ensures forall i :: 0 <= i < |els| ==>
      (Claimed(Paint(els, target.covered, TempColour(n)), target.scope, TempColour(n), i) <==>
       i in target.covered && i in target.scope && els[i].isSpan)
  {
    TempColourRoundTrip(n);
  }

  /** A claimed span reads back in the next scan as the imported annotation:
      the record's id, timestamp and colour, its comment when it had one. */
  lemma ClaimedSpanReadsBackAsRecord(els: seq<Element>, scope: set<nat>, temp: string, rec: ImportRecord, i: nat)
    requires i < |els| && Claimed(els, scope, temp, i)
    requires IsLowerHexColour(rec.color) && rec.id != "" && rec.timestamp != ""
    ensures Marked(ClaimSpans(els, scope, temp, rec)[i])
    ensures Record(ClaimSpans(els, scope, temp, rec)[i]) ==
      Annotation(rec.id, els[i].text, rec.color, rec.timestamp,
                 if Present(rec.comment) then rec.comment
                 else if Present(els[i].comment) then els[i].comment else None)
  {
    AssignedColourRoundTrip(rec.color);
    LowerHexColourIsTriplet(rec.color);
    var css := CssSerialize(rec.color);
    assert css[0] == 'r';
  }

  // ---------------------------------------------------------------------
  // One record and the whole batch

  /** The loop's state: the page's elements, the collapsed selection (the
      search cursor), the count of records found and the matches placed. */
  datatype BatchState = BatchState(elements: seq<Element>, cursor: nat, count: nat, placed: seq<Match>)

  /** One iteration of the loop for record `rec` with temporary colour
      `temp`. A miss leaves everything as it was; a hit paints the match,
      claims the painted spans, moves the cursor to the end of the match and
      counts one. */
  function ReanchorRecord(st: BatchState, rec: ImportRecord, body: string, temp: string,
                          paint: (seq<Element>, Match) -> PaintTarget): (r: BatchState)
    ensures Locate(body, st.cursor, rec.text).None? ==> r == st
    ensures Locate(body, st.cursor, rec.text).Some? ==>
      var m := Locate(body, st.cursor, rec.text).value;
      r.cursor == m.end && r.count == st.count + 1 && r.placed == st.placed + [m]
    ensures |r.elements| == |st.elements|
    ensures forall i :: 0 <= i < |st.elements| ==>
      r.elements[i].text == st.elements[i].text && r.elements[i].isSpan == st.elements[i].isSpan
    ensures Locate(body, st.cursor, rec.text).Some? ==>
      var target := paint(st.elements, Locate(body, st.cursor, rec.text).value);
      forall i :: 0 <= i < |st.elements| && i !in target.covered && i !in target.scope ==>
        r.elements[i] == st.elements[i]
    ensures Locate(body, st.cursor, rec.text).Some? ==>
      var target := paint(st.elements, Locate(body, st.cursor, rec.text).value);
      forall i :: 0 <= i < |st.elements| && i !in target.covered && !Claimed(st.elements, target.scope, temp, i) ==>
        r.elements[i] == st.elements[i]
  {
    match Locate(body, st.cursor, rec.text)
    case None => st
    case Some(m) =>
      var target := paint(st.elements, m);
      var painted := Paint(st.elements, target.covered, temp);
      BatchState(ClaimSpans(painted, target.scope, temp, rec), m.end, st.count + 1, st.placed + [m])
  }

  /** The record-by-record fold the loop computes: record `k` uses the `k`-th
      drawn temporary colour. */
  function RunBatch(body: string, els: seq<Element>, recs: seq<ImportRecord>,
                    paint: (seq<Element>, Match) -> PaintTarget, draw: nat -> ColourIndex): (r: BatchState)
    ensures |r.elements| == |els| && r.count <= |recs|
  {
    if recs == [] then BatchState(els, 0, 0, [])
    else
      var k := |recs| - 1;
      ReanchorRecord(RunBatch(body, els, recs[..k], paint, draw), recs[k], body, TempColour(draw(k)), paint)
  }

  /** One more record extends the fold by one step. */
  lemma RunBatchStep(body: string, els: seq<Element>, recs: seq<ImportRecord>, i: nat,
                     paint: (seq<Element>, Match) -> PaintTarget, draw: nat -> ColourIndex)
    requires i < |recs|
    ensures RunBatch(body, els, recs[..i + 1], paint, draw)
         == ReanchorRecord(RunBatch(body, els, recs[..i], paint, draw), recs[i], body, TempColour(draw(i)), paint)
  {
    assert recs[..i + 1][..i] == recs[..i];
  }

  /** The matches are in increasing order and do not overlap. */
  predicate Ordered(placed: seq<Match>) {
    forall k :: 0 < k < |placed| ==> placed[k - 1].end <= placed[k].start
  }

  /** What holds of the loop's state after any number of records: one count
      per placed match, each match a non-empty range of the body, the matches
      in order and the cursor at the end of the last one; elements keep their
      text and kind, and nothing changes before the first hit. */
  predicate BatchInvariant(st: BatchState, els: seq<Element>, body: string) {
    && st.count == |st.placed|
    && st.cursor <= |body|
    && (st.placed != [] ==> st.cursor == st.placed[|st.placed| - 1].end)
    && (forall k :: 0 <= k < |st.placed| ==> st.placed[k].start < st.placed[k].end <= |body|)
    && Ordered(st.placed)
    && (st.count == 0 ==> st.elements == els)
    && |st.elements| == |els|
    && (forall j :: 0 <= j < |els| ==> st.elements[j].text == els[j].text && st.elements[j].isSpan == els[j].isSpan)
  }

  /** A match starting at or after the end of the last one extends an ordered
      list of matches. */
  lemma OrderedAppend(placed: seq<Match>, m: Match)
    requires Ordered(placed)
    requires placed != [] ==> placed[|placed| - 1].end <= m.start
    ensures Ordered(placed + [m])
  {
    var r := placed + [m];
    forall k | 0 < k < |r| ensures r[k - 1].end <= r[k].start {
      assert r[k - 1] == placed[k - 1];
      if k < |placed| {
        assert r[k] == placed[k];
      }
    }
  }

  lemma ReanchorKeepsInvariant(st: BatchState, els: seq<Element>, rec: ImportRecord, body: string,
                               temp: string, paint: (seq<Element>, Match) -> PaintTarget)
    requires BatchInvariant(st, els, body)
    ensures BatchInvariant(ReanchorRecord(st, rec, body, temp, paint), els, body)
  {
    var r := ReanchorRecord(st, rec, body, temp, paint);
    if Locate(body, st.cursor, rec.text).Some? {
      var m := Locate(body, st.cursor, rec.text).value;
      assert st.cursor <= m.start < m.end <= |body| by {
        LocateFindsFirstOccurrence(body, st.cursor, rec.text);
      }
      OrderedAppend(st.placed, m);
      assert r.placed == st.placed + [m];
      assert forall k :: 0 <= k < |r.placed| ==> r.placed[k].start < r.placed[k].end <= |body| by {
        forall k | 0 <= k < |r.placed| ensures r.placed[k].start < r.placed[k].end <= |body| {
          if k < |st.placed| {
            assert r.placed[k] == st.placed[k];
          }
        }
      }
    }
  }

  /** The import loop: the cursor starts collapsed at the beginning of the
      body; records are handled one at a time, in file order. */
  method ImportBatch(body: string, els: seq<Element>, recs: seq<ImportRecord>,
                     paint: (seq<Element>, Match) -> PaintTarget, draw: nat -> ColourIndex)
    returns (st: BatchState)
    ensures st == RunBatch(body, els, recs, paint, draw)
    ensures st.count == |st.placed| <= |recs|
    ensures forall k :: 0 <= k < |st.placed| ==> st.placed[k].start < st.placed[k].end <= |body|
    ensures Ordered(st.placed)
    ensures st.count == 0 ==> st.elements == els
    ensures |st.elements| == |els|
    ensures forall i :: 0 <= i < |els| ==> st.elements[i].text == els[i].text && st.elements[i].isSpan == els[i].isSpan
  {
    st := BatchState(els, 0, 0, []);
    var i := 0;
    while i < |recs|
      invariant 0 <= i <= |recs|
      invariant st == RunBatch(body, els, recs[..i], paint, draw)
    {
      RunBatchStep(body, els, recs, i, paint, draw);
      st := ReanchorRecord(st, recs[i], body, TempColour(draw(i)), paint);
      i := i + 1;
    }
    assert recs[..|recs|] == recs;
    RunBatchKeepsInvariant(body, els, recs, paint, draw);
  }

  /** Every prefix of the fold satisfies the loop's invariant, with at most
      one placed match per record. */
  lemma {:induction false} RunBatchKeepsInvariant(body: string, els: seq<Element>, recs: seq<ImportRecord>,
                                                  paint: (seq<Element>, Match) -> PaintTarget, draw: nat -> ColourIndex)
    ensures BatchInvariant(RunBatch(body, els, recs, paint, draw), els, body)
    ensures RunBatch(body, els, recs, paint, draw).count <= |recs|
  {
    if recs != [] {
      var k := |recs| - 1;
      RunBatchKeepsInvariant(body, els, recs[..k], paint, draw);
      ReanchorKeepsInvariant(RunBatch(body, els, recs[..k], paint, draw), els, recs[k], body, TempColour(draw(k)), paint);
    }
  }

  /** A hit stamps every span the paint reached inside the scope: the span
      is highlighted and the next scan reads it back as the imported record,
      with the record's comment when it has one and the span's own
      otherwise. */
  lemma ReanchorStampsPaintedSpans(st: BatchState, rec: ImportRecord, body: string, n: ColourIndex,
                                   paint: (seq<Element>, Match) -> PaintTarget, i: nat)
    requires Locate(body, st.cursor, rec.text).Some?
    requires IsLowerHexColour(rec.color) && rec.id != "" && rec.timestamp != ""
    requires var target := paint(st.elements, Locate(body, st.cursor, rec.text).value);
      i < |st.elements| && i in target.covered && i in target.scope && st.elements[i].isSpan
    ensures var r := ReanchorRecord(st, rec, body, TempColour(n), paint);
      Marked(r.elements[i]) &&
      Record(r.elements[i]) ==
        Annotation(rec.id, st.elements[i].text, rec.color, rec.timestamp,
                   if Present(rec.comment) then rec.comment
                   else if Present(st.elements[i].comment) then st.elements[i].comment else None)
  {
    var target := paint(st.elements, Locate(body, st.cursor, rec.text).value);
    var painted := Paint(st.elements, target.covered, TempColour(n));
    PaintedSpansAreClaimed(st.elements, target, n, i);
    ClaimedSpanReadsBackAsRecord(painted, target.scope, TempColour(n), rec, i);
  }

  /** The same for record `k` of the batch, painted with the `k`-th drawn
      temporary colour: when it is found, every span its paint reached inside
      the scope reads back as that record once the record is handled. */
  lemma RunBatchStampsRecord(body: string, els: seq<Element>, recs: seq<ImportRecord>, k: nat,
                             paint: (seq<Element>, Match) -> PaintTarget, draw: nat -> ColourIndex, i: nat)
    requires k < |recs|
    requires var st := RunBatch(body, els, recs[..k], paint, draw);
      Locate(body, st.cursor, recs[k].text).Some? &&
      var target := paint(st.elements, Locate(body, st.cursor, recs[k].text).value);
      i < |st.elements| && i in target.covered && i in target.scope && st.elements[i].isSpan
    requires IsLowerHexColour(recs[k].color) && recs[k].id != "" && recs[k].timestamp != ""
    ensures RunBatch(body, els, recs[..k + 1], paint, draw)
         == ReanchorRecord(RunBatch(body, els, recs[..k], paint, draw), recs[k], body, TempColour(draw(k)), paint)
    ensures var before := RunBatch(body, els, recs[..k], paint, draw).elements[i];
      var after := RunBatch(body, els, recs[..k + 1], paint, draw).elements[i];
      Marked(after) &&
      Record(after) ==
        Annotation(recs[k].id, before.text, recs[k].color, recs[k].timestamp,
                   if Present(recs[k].comment) then recs[k].comment
                   else if Present(before.comment) then before.comment else None)
  {
    RunBatchStep(body, els, recs, k, paint, draw);
    ReanchorStampsPaintedSpans(RunBatch(body, els, recs[..k], paint, draw), recs[k], body, draw(k), paint, i);
  }

  // ---------------------------------------------------------------------
  // The whole handler

  /** The import file as `JSON.parse` left it: not JSON at all, or an object
      whose `annotations` field is an array of records (`None` when the field
      is missing or not an array). */
  datatype ImportFile = Unparsable | Parsed(annotations: Option<seq<ImportRecord>>)

  /** The handler's outcome: the error message for a file that is not JSON,
      silence for one without an annotations array, or "Imported count of
      total annotations". */
  datatype ImportStatus = ParseFailed | NoAnnotations | Imported(count: nat, total: nat)

  /** `handleImportFile`: a parse failure or a missing array changes nothing;
      otherwise the batch runs and a scan rebuilds the list. */
  method HandleImport(file: ImportFile, body: string, els: seq<Element>,
                      paint: (seq<Element>, Match) -> PaintTarget, draw: nat -> ColourIndex,
                      newId: nat -> NonEmpty, clock: nat -> NonEmpty)
    returns (status: ImportStatus, result: seq<Element>, anns: Option<seq<Annotation>>)
    ensures file.Unparsable? <==> status.ParseFailed?
    ensures file == Parsed(None) <==> status.NoAnnotations?
    ensures !status.Imported? ==> result == els && anns.None?
    ensures status.Imported? ==>
      file.Parsed? && file.annotations.Some? &&
      status.total == |file.annotations.value| && status.count <= status.total &&
      anns == Some(Project(result)) && Synced(result) && |result| == |els|
    ensures status.Imported? && status.count == 0 && Synced(els) ==> result == els
    ensures status.Imported? ==>
      file.Parsed? && file.annotations.Some? &&
      var st := RunBatch(body, els, file.annotations.value, paint, draw);
      status.count == st.count && |result| == |st.elements| &&
      forall i :: 0 <= i < |result| ==> result[i] == Stamp(st.elements[i], i, newId, clock)
  {
    match file
    case Unparsable =>
      status, result, anns := ParseFailed, els, None;
    case Parsed(None) =>
      status, result, anns := NoAnnotations, els, None;
    case Parsed(Some(recs)) =>
      var st := ImportBatch(body, els, recs, paint, draw);
      var list;
      result, list := SyncAnnotations(st.elements, newId, clock);
      status, anns := Imported(st.count, |recs|), Some(list);
  }
}

=== FILE: sequences.dfy ===
/** Generic facts about sequences that the proofs of the other modules cite:
    concatenation, slicing and single-position update. */
module Sequences {

  lemma AppendAssoc<T>(x: seq<T>, y: seq<T>, z: seq<T>)
    ensures x + y + z == x + (y + z)
  {
  }

  lemma AppendEmpty<T>(s: seq<T>)
    ensures s + [] == s
  {
  }

  /** A sequence is its prefix, the element at `k` and its suffix. */
  lemma SplitAround<T>(s: seq<T>, k: nat)
    requires k < |s|
    ensures s == s[..k] + [s[k]] + s[k + 1..]
  {
  }

  /** A suffix of a concatenation that starts inside the first part. */
  lemma DropFromAppend<T>(p: seq<T>, q: seq<T>, k: nat)
    requires k <= |p|
    ensures (p + q)[k..] == p[k..] + q
  {
  }

  /** Updating position `k` leaves the rest of the sequence as it was. */
  lemma UpdateKeepsRest<T>(s: seq<T>, k: nat, x: T)
    requires k < |s|
    ensures s[k := x][..k] == s[..k] && s[k := x][k] == x && s[k := x][k + 1..] == s[k + 1..]
  {
  }
}

=== FILE: sidebar.dfy ===
/** The sidebar's search box and its list header (src/components/
    sidebar-content.tsx): a case-insensitive substring filter over the
    annotations' text, the count badge, the "Clear all" button and the
    "No annotations yet" placeholder. */
module Sidebar {
  import opened Strings
  import opened Document

  /** An annotation stays visible when its lower-cased text contains the
      lower-cased query. */
  predicate Keeps(a: Annotation, query: string) {
    Contains(Lower(a.text), Lower(query))
  }

  /** `annotations.filter(…)`. */
  function Filter(anns: seq<Annotation>, query: string): (r: seq<Annotation>)
    ensures |r| <= |anns|
    ensures forall x :: x in r <==> x in anns && Keeps(x, query)
  {
    if anns == [] then []
    else
      var init, last := anns[..|anns| - 1], anns[|anns| - 1];
      assert anns == init + [last];
      Filter(init, query) + (if Keeps(last, query) then [last] else [])
  }

  /** The positions, below `n`, of the annotations the filter keeps, in
      increasing order. */
  function KeptPositions(anns: seq<Annotation>, query: string, n: nat): (r: seq<nat>)
    requires n <= |anns|
    ensures forall k :: 0 <= k < |r| ==> r[k] < n && Keeps(anns[r[k]], query)
    ensures forall k, l :: 0 <= k < l < |r| ==> r[k] < r[l]
    ensures forall i :: 0 <= i < n && Keeps(anns[i], query) ==> i in r
  {
    if n == 0 then []
    else KeptPositions(anns, query, n - 1) + (if Keeps(anns[n - 1], query) then [n - 1] else [])
  }

  /** The filtered list is exactly the kept annotations picked out in their
      original order: a subsequence of the input, entries unchanged. */
  lemma {:induction false} FilterIsSubsequence(anns: seq<Annotation>, query: string)
    ensures var r, idx := Filter(anns, query), KeptPositions(anns, query, |anns|);
      |r| == |idx| && forall k :: 0 <= k < |r| ==> r[k] == anns[idx[k]]
  {
    if anns != [] {
      var n := |anns|;
      var init, last := anns[..n - 1], anns[n - 1];
      FilterIsSubsequence(init, query);
      KeptPositionsAgree(init, anns, query, n - 1);
      var front, idx := Filter(init, query), KeptPositions(init, query, n - 1);
      var tail := if Keeps(last, query) then [last] else [];
      var tailIdx := if Keeps(last, query) then [n - 1] else [];
      assert Filter(anns, query) == front + tail;
      assert KeptPositions(anns, query, n) == idx + tailIdx;
      forall k | 0 <= k < |front| ensures (front + tail)[k] == anns[(idx + tailIdx)[k]] {
        assert (front + tail)[k] == front[k] == init[idx[k]];
        assert (idx + tailIdx)[k] == idx[k] < n - 1;
      }
    }
  }

  /** The kept positions below `n` depend only on the entries below `n`. */
  lemma {:induction false} KeptPositionsAgree(a: seq<Annotation>, b: seq<Annotation>, query: string, n: nat)
    requires n <= |a| && n <= |b|
    requires forall i :: 0 <= i < n ==> a[i] == b[i]
    ensures KeptPositions(a, query, n) == KeptPositions(b, query, n)
  {
    if n > 0 {
      KeptPositionsAgree(a, b, query, n - 1);
    }
  }

  /** An empty search box shows every annotation. */
  lemma {:induction false} EmptyQueryKeepsAll(anns: seq<Annotation>)
    ensures Filter(anns, "") == anns
  {
    if anns != [] {
      var init, last := anns[..|anns| - 1], anns[|anns| - 1];
      EmptyQueryKeepsAll(init);
      assert Keeps(last, "") by {
        assert Lower("") == [];
        assert OccursAt(Lower(last.text), [], 0);
      }
      assert anns == init + [last];
    }
  }

  /** The query's case does not matter. */
  lemma QueryCaseIgnored(anns: seq<Annotation>, q1: string, q2: string)
    requires Lower(q1) == Lower(q2)
    ensures Filter(anns, q1) == Filter(anns, q2)
  {
  }

  /** What the list header and body show. */
  datatype View = View(badge: nat, clearAllShown: bool, placeholder: bool, listed: seq<Annotation>)

  /** The sidebar for the current list and search text. */
  function Render(anns: seq<Annotation>, query: string): (v: View)
    ensures v.badge == |v.listed| <= |anns|
    ensures v.clearAllShown <==> anns != []
    ensures v.placeholder <==> anns == []
    ensures !v.placeholder ==> forall x :: x in v.listed <==> x in anns && Keeps(x, query)
    ensures v.listed == Filter(anns, query)
  {
    var filtered := Filter(anns, query);
    View(|filtered|, |anns| > 0, |filtered| == 0 && |anns| == 0, filtered)
  }
}

=== FILE: strings.dfy ===
/** Character and string helpers shared by the model: ASCII case folding,
    prefix/suffix tests and substring search.

    JavaScript's `toLowerCase` and `\s` cover all of Unicode; this model folds
    only the ASCII letters and treats only the ASCII whitespace characters as
    white space. */
module Strings {
  import opened Options

  /** ASCII lower-casing of one character; everything else is left alone. */
  function LowerChar(c: char): (r: char)
    ensures 'A' <= c <= 'Z' ==> 'a' <= r <= 'z'
    ensures !('A' <= c <= 'Z') ==> r == c
    ensures !('A' <= r <= 'Z')
  {
    if 'A' <= c <= 'Z' then (c as int - 'A' as int + 'a' as int) as char else c
  }

  /** `s.toLowerCase()`, restricted to ASCII. */
  function Lower(s: string): (r: string)
    ensures |r| == |s|
    ensures forall i :: 0 <= i < |s| ==> r[i] == LowerChar(s[i])
  {
    if s == [] then [] else [LowerChar(s[0])] + Lower(s[1..])
  }

  /** The number of UTF-16 code units that encode `c`: two for a character
      outside the Basic Multilingual Plane, one otherwise. */
  function Utf16Units(c: char): nat {
    if c as int >= 0x1_0000 then 2 else 1
  }

  /** `s.length` in JavaScript, which counts UTF-16 code units rather than
      characters. */
  function Utf16Length(s: string): (n: nat)
    ensures |s| <= n <= 2 * |s|
    ensures (forall i :: 0 <= i < |s| ==> s[i] as int < 0x1_0000) ==> n == |s|
    ensures (forall i :: 0 <= i < |s| ==> s[i] as int >= 0x1_0000) ==> n == 2 * |s|
  {
    if s == [] then 0 else Utf16Units(s[0]) + Utf16Length(s[1..])
  }

  /** The length of a concatenation is the sum of the lengths. */
  lemma {:induction false} Utf16LengthAppend(a: string, b: string)
    ensures Utf16Length(a + b) == Utf16Length(a) + Utf16Length(b)
  {
    if a == [] {
      assert a + b == b;
    } else {
      assert (a + b)[0] == a[0] && (a + b)[1..] == a[1..] + b;
      Utf16LengthAppend(a[1..], b);
      assert Utf16Length(a + b) == Utf16Units(a[0]) + Utf16Length(a[1..] + b);
    }
  }

  /** `s.startsWith(p)`. */
  predicate StartsWith(s: string, p: string) {
    |p| <= |s| && s[..|p|] == p
  }

  /** `s.endsWith(p)`. */
  predicate EndsWith(s: string, p: string) {
    |p| <= |s| && s[|s| - |p|..] == p
  }

  /** `needle` occurs in `hay` starting at position `p` (exact comparison). */
  predicate OccursAt(hay: string, needle: string, p: nat) {
    p + |needle| <= |hay| && hay[p..p + |needle|] == needle
  }

  /** `hay.includes(needle)`; the empty needle occurs everywhere. */
  predicate Contains(hay: string, needle: string) {
    exists p: nat | p <= |hay| :: OccursAt(hay, needle, p)
  }

  /** The first position at or after `from` where `needle` occurs in `hay`. */
  function FirstOccurrence(hay: string, needle: string, from: nat): (r: Option<nat>)
    ensures r.Some? ==> from <= r.value && OccursAt(hay, needle, r.value)
    ensures r.Some? ==> forall p: nat :: from <= p < r.value ==> !OccursAt(hay, needle, p)
    ensures r.None? ==> forall p: nat :: from <= p ==> !OccursAt(hay, needle, p)
    decreases |hay| - from
  {
    if from + |needle| > |hay| then None
    else if hay[from..from + |needle|] == needle then Some(from)
    else FirstOccurrence(hay, needle, from + 1)
  }

  /** Case-insensitive occurrence, as `window.find` compares text when its
      case-sensitive flag is false. */
  predicate OccursAtIgnoringCase(body: string, query: string, p: nat) {
    OccursAt(Lower(body), Lower(query), p)
  }

  /** The search oracle standing for `window.find(query, false, false, false, …)`:
      the first case-insensitive occurrence that starts at or after the
      cursor, searching forward and never wrapping round to the start. An
      empty query is never found. */
  function Find(body: string, query: string, cursor: nat): (r: Option<nat>)
    ensures r.Some? <==> query != [] && exists p: nat | cursor <= p <= |body| :: OccursAtIgnoringCase(body, query, p)
    ensures r.Some? ==> cursor <= r.value && r.value + |query| <= |body|
    ensures r.Some? ==> OccursAtIgnoringCase(body, query, r.value)
    ensures r.Some? ==> forall p: nat :: cursor <= p < r.value ==> !OccursAtIgnoringCase(body, query, p)
  {
    if query == [] then None
    else
      var r := FirstOccurrence(Lower(body), Lower(query), cursor);
      assert r.Some? ==> OccursAtIgnoringCase(body, query, r.value);
      r
  }
}
